=== FILE: README.md ===
# Meeting scheduler: the dialogue controller, modelled in Dafny

This project models the core of a conversational calendar assistant. A user's
free-text request is classified into an intent record (`LIST_EVENTS`,
`CREATE_EVENT`, `CANCEL_EVENT`, `SELECT_OPTION` or `UNKNOWN`). The handler of
`POST /api/query` turns that record into calendar requests. It carries two
session slots across turns:

- `pendingEvent`: a create that hit a conflict and waits for "schedule anyway";
- `cancellationCandidates`: the events a cancel request matched, waiting for a
  selection.

The model covers three parts of the source:

- **The handler's dispatch** (`src/server.ts`). It is the first-match-wins cascade
  of eight branches: list, forced create from the session, forced create in a
  single turn, availability-checked create, cancel, select, the forced catch-all
  and the fallback. `Server.Route` gives the order. `Server.HandleTurn` is an
  imperative method over a `Session` object and a `CalendarService` object. It
  hands each branch to a helper method: `ListTurn`, `CheckedCreateTurn`,
  `CancelTurn` and `SelectTurn`, and `ForcedCreateTurn`, which serves all three
  forced creates. The fallback reply is given inline. A two-state predicate per branch
  (`ListEffect`, `CheckedCreateEffect`, `CancelEffect`, ...) states which
  requests are sent, which slot changes and which reply is given, including
  every error outcome.
- **The calendar gateway** (`src/calendar.ts`). `CalendarService` holds the remote
  calendar as a sequence of events and a log of the requests sent to it. The
  `rejected` set holds the request numbers the remote side rejects. A rejected
  request becomes the handler's 500 answer. The model keeps the source's
  concrete rules:
  - a window is available exactly when it has no events;
  - results are capped at 10;
  - the list text is rendered as the source renders it;
  - the insert payload is built from the intent, with fixed reminders.
- **The contact directory** (`src/contacts.ts`). `ContactService` holds a map
  whose lookups and writes use the lower-cased name, and is seeded with three
  defaults.

`JsText` models the JavaScript string behaviour the source depends on:

- ASCII `toLowerCase` and `includes`;
- `Array.prototype.join`, which prints `undefined` as "";
- template literals, which print `undefined` as "undefined";
- `||` on strings;
- `parseInt`: leading white space, a sign, `0x`, and the longest run of digits.

The source's quirks are kept, not fixed:

- In the cancel filter, an event with an empty summary matches every query.
- An event without a summary matches exactly the queries that contain
  "undefined".
- `parseInt("2nd")` is 2, while `"option 2"` is NaN.
- "third" or "3rd" with fewer than three candidates stays unresolved, and no
  summary search is tried.
- A `SELECT_OPTION` with no summary is a 500.
- Reaching a summary-less candidate in the summary search is a 500.

In these places the model keeps what the code does:

- A `CREATE_EVENT` or `CANCEL_EVENT` without times is sent to the calendar with
  the times left out. It is not answered with the "didn't understand" fallback.
- `listEvents` defaults only `timeMin` (to now) and sends no `timeMax`. The
  "next 24 hours" default comes from the classifier's instructions.
- A number outside the candidate range is not a retry prompt by itself. It falls
  through to the ordinal words and then to the summary search.
- The single-match cancel branch leaves an earlier `cancellationCandidates` in
  place.

## Model

| member | source | states |
|---|---|---|
| `Intents.KindOf` | src/server.ts:114-192 | each of "LIST_EVENTS", "CREATE_EVENT", "CANCEL_EVENT" and "SELECT_OPTION" gives exactly its own kind, and a tag is `Unknown` exactly when it is none of the four |
| `Intents.ClassifierFailed` | src/agent.ts:66-69 | a failed classification is an `UNKNOWN` intent without summary, times or override flag |
| `JsText.Or` | src/calendar.ts:36 | `a \|\| b` yields `a` when it is a non-empty string, else `b` |
| `JsText.IncludesAt` | src/server.ts:164-165 | `includes` holds exactly when the needle occurs at some position |
| `JsText.MissingCharExcludes` | src/server.ts:204-209 | a needle with a character absent from the text is not included |
| `JsText.JoinIncludesEach` | src/server.ts:151 | every joined part occurs in the joined text |
| `JsText.Lower` | src/contacts.ts:32 | lower-casing keeps the length, leaves no upper-case letter, keeps every character that is not an upper-case letter, and moves every upper-case ASCII letter to its lower-case partner (code point plus 32) |
| `JsText.Includes` | src/server.ts:164-165 | a needle is only ever found in a text at least as long as itself |
| `JsText.Join` | src/server.ts:151 | joining no parts gives ""; the text starts with the first part, followed by the separator when there is more than one part |
| `JsText.SplitJoin` | src/calendar.ts:35-38 | lines joined by a separator none of them contains are cut back into the same lines by `Split`, a model-side inverse of `join` |
| `JsText.LowerIdempotent` | src/server.ts:162 | lower-casing twice equals lower-casing once |
| `JsText.ParseInt` | src/server.ts:199 | the result is NaN unless, after leading white space, the text starts with a sign or a decimal digit; a negative result needs a leading '-' |
| `JsText.DecimalPrefixStops` | src/server.ts:199 | the digits `parseInt` reads from a run of decimal digits followed by a non-digit are exactly that run |
| `JsText.ParseIntLeadingNumber` | src/server.ts:199 | `parseInt` of a printed natural number followed by any text that does not start with a digit (nor with 'x' or 'X' after a lone 0) is that number |
| `JsText.ParseIntNatToString` | src/server.ts:199 | `parseInt` of a printed natural number gives that number back |
| `JsText.LowerNatToString` | src/server.ts:195 | lower-casing a printed number leaves it unchanged |
| `JsText.ParseIntOrdinal` | src/server.ts:199 | `parseInt("2nd")` is 2 |
| `JsText.ParseIntSpaceAndSign` | src/server.ts:199 | `parseInt` skips leading white space and reads a sign |
| `JsText.ParseIntHex` | src/server.ts:199 | after "0x" `parseInt` reads hexadecimal digits |
| `JsText.ParseIntNaN` | src/server.ts:199-200 | "option 2", "the second one", "0x" and "" are NaN |
| `Calendar.InWindow` | src/calendar.ts:48-56 | the window holds exactly the stored events the window relation admits, and is no longer than the store |
| `Calendar.InWindowCons` | src/calendar.ts:48-56 | a store starting with an event has that event first in its window when the window relation admits it, followed by the window of the rest |
| `Calendar.InWindowAppend` | src/calendar.ts:48-56 | the window of two stores one after the other is the window of the first followed by the window of the second, so store order and repeated events are kept |
| `Calendar.InWindowSingle` | src/calendar.ts:48-56 | a one-event store's window holds that event exactly when the window relation admits it |
| `Calendar.InWindowAll` | src/calendar.ts:48-56 | when every stored event is in the window, the window is the whole store |
| `Calendar.Fetch` | src/calendar.ts:105-113 | a fetch returns at most `limit` events, all of them stored and in the window, as a prefix of the window in store order |
| `Calendar.FetchEmptyIff` | src/calendar.ts:56-59 | with a positive cap, a fetch is empty exactly when no stored event is in the window |
| `Calendar.RemoveId` | src/calendar.ts:123-126 | deleting an id keeps every other event, leaves no event with that id, shrinks the store when the id was present, and changes nothing when it was not |
| `Calendar.RemoveIdCons` | src/calendar.ts:123-126 | deleting from a store that starts with an event drops that event exactly when it carries the id, and deletes from the rest |
| `Calendar.RemoveIdAppend` | src/calendar.ts:123-126 | deleting from two stores one after the other deletes from each, so the other events keep their order and repeats |
| `Calendar.RemoveIdSingle` | src/calendar.ts:123-126 | a one-event store loses its event exactly when the event carries the deleted id |
| `Calendar.ListLine` | src/calendar.ts:35-37 | a list line is the rendered start, then " - ", then the rendered summary ("undefined" when absent) |
| `Calendar.ListLines` | src/calendar.ts:35-38 | there is one list line per event, in order |
| `Calendar.RenderList` | src/calendar.ts:32-38 | no events give "No upcoming events found."; otherwise the text starts with the first event's line, followed by a line break when more events follow |
| `Calendar.RenderListLines` | src/calendar.ts:32-38 | an empty window renders "No upcoming events found."; otherwise the text splits back into one "<start> - <summary>" line per event |
| `Calendar.ListQuery` | src/calendar.ts:15-28 | `timeMin` defaults to now, `timeMax` is sent only when given, and the cap is passed through |
| `Calendar.PayloadTimeZone` | src/calendar.ts:76 | the time zone is the `TIMEZONE` setting when non-empty, else "UTC" |
| `Calendar.Payload` | src/calendar.ts:70-90 | the payload copies summary, location and description and maps the start/end times to `dateTime`; attendees default to []; reminders are email at 1440 minutes and popup at 10, with defaults off |
| `Calendar.PayloadIgnoresControlFields` | src/calendar.ts:70-82 | records that agree on their event fields give the same payload, whatever their kind or override flag |
| `Calendar.Stored` | src/calendar.ts:92-95 | the stored event carries the payload's summary, times and attendees under the new id |
| `Calendar.CalendarService.constructor` | src/calendar.ts:7-9 | a new gateway has sent no request yet |
| `Calendar.CalendarService.ListEvents` | src/calendar.ts:15-43 | sends exactly one list request; returns the rendered window, or an error when the request is rejected |
| `Calendar.CalendarService.CheckAvailability` | src/calendar.ts:45-65 | sends one list request capped at 10; conflicts are exactly the fetched events; available iff there are none iff no stored event is in the window |
| `Calendar.CalendarService.CreateEvent` | src/calendar.ts:67-101 | sends one insert with the payload; on success appends the event and returns "Event created: <link>", on rejection changes no event and errs |
| `Calendar.CalendarService.GetEvents` | src/calendar.ts:102-118 | sends one list request capped at 10 and returns the fetched events, or errs |
| `Calendar.CalendarService.DeleteEvent` | src/calendar.ts:120-132 | sends one delete request; removes the event and returns "Event deleted successfully.", or errs with the events unchanged when rejected or when no such event exists |
| `Contacts.DefaultContacts` | src/contacts.ts:17-23 | the seeded directory holds exactly alice, bob and team with their @example.com addresses |
| `Contacts.Lookup` | src/contacts.ts:31-33 | a lookup finds the entry under the lower-cased name, and `None` when it is absent |
| `Contacts.LookupIgnoresCase` | src/contacts.ts:31-33 | names that lower-case alike find the same entry |
| `Contacts.LookupCaseVariants` | src/contacts.ts:31-33 | two spellings of equal length that differ, position by position, only in the case of ASCII letters find the same entry |
| `Contacts.UpperCaseKeyUnreachable` | src/contacts.ts:13-33 | a loaded key holding an upper-case letter is never the lower-cased form of any name |
| `Contacts.DefaultLookup` | src/contacts.ts:17-33 | the defaults answer "Alice" and "BOB", and do not know "carol" |
| `Contacts.ContactService.constructor` | src/contacts.ts:9-25 | the directory is the stored one when a file exists, otherwise the three defaults |
| `Contacts.ContactService.GetEmail` | src/contacts.ts:31-33 | returns `Lookup` of the name: the entry of the lower-cased name, or `None` when there is none |
| `Contacts.ContactService.AddContact` | src/contacts.ts:35-38 | afterwards every name with the same lower-case form finds the new email, the key set gains only that key, and every other entry is unchanged |
| `Contacts.ContactService.GetAllContacts` | src/contacts.ts:40-42 | returns the directory itself |
| `Server.Session.constructor` | src/server.ts:24-29 | a new session has neither a pending event nor candidates |
| `Server.Route` | src/server.ts:114-235 | each branch is characterised exactly. LIST_EVENTS lists and CANCEL_EVENT cancels. A CREATE_EVENT with an override and a pending event re-sends the stored event; with an override and no pending event it sends the new one unchecked; without an override it checks availability. SELECT_OPTION selects exactly when candidates are stored. Otherwise an UNKNOWN or SELECT_OPTION intent takes the catch-all when there is an override and a pending event, and the fallback when there are not both |
| `Server.ClassifierFailureFallsBack` | src/server.ts:225-235 | a failed classification always takes the fallback, whatever the session holds |
| `Server.NoReconfirmationWithoutPending` | src/server.ts:121-232 | without a pending event, no turn re-submits a pending event: neither the session-forced create nor the catch-all is taken |
| `Server.ConflictNames` | src/server.ts:151 | there is one name per conflict, an absent summary rendered as "" |
| `Server.ConflictReply` | src/server.ts:152 | the conflict question opens with "I found a conflict with: " |
| `Server.ConflictReplyNamesEach` | src/server.ts:151-152 | the conflict reply contains every conflicting event's summary |
| `Server.CanceledReply` | src/server.ts:178 | the confirmation opens with the quoted summary (absent shown as "undefined") and contains the formatted start |
| `Server.AttendeesSuffix` | src/server.ts:188 | no attendee list gives ""; any list, even an empty one, gives a text starting with " With " (just " With " for an empty list) |
| `Server.AttendeeNames` | src/server.ts:188 | one name per attendee, in order: the display name when truthy, else the email |
| `Server.AttendeesSuffixNamesEach` | src/server.ts:188 | the suffix contains every attendee's name |
| `Server.CandidateLineShape` | src/server.ts:189 | a candidate line opens with "<number>. " and contains "<date> - <summary>" |
| `Server.CandidateLines` | src/server.ts:183-190 | there is one line per candidate, in order, and line k offers candidate k under the number first+k |
| `Server.CandidatesReply` | src/server.ts:182-190 | the reply opens with the request to pick one of the matches |
| `Server.CandidatesReplyOffersEach` | src/server.ts:182-190 | the reply contains every candidate's line, numbered from 1 |
| `Server.MatchesQueryOccurs` | src/server.ts:164-165 | the filter test, by position: an absent summary matches when "undefined" occurs in the query; a non-empty one matches when the query occurs in it or it occurs in the query |
| `Server.Matching` | src/server.ts:163-166 | the filter keeps exactly the events matching the query, in no greater number |
| `Server.MatchingAppend` | src/server.ts:163 | filtering a concatenation filters each part and concatenates, so the kept events keep their fetched order and multiplicity |
| `Server.MatchingSingle` | src/server.ts:163 | a single event is kept exactly when it matches |
| `Server.CancelFilter` | src/server.ts:160-167 | without a non-empty summary all fetched events are kept; otherwise the result is the in-order filter `Matching`, keeping exactly the events whose summary contains the lower-cased query or is contained in it |
| `Server.MatchesEitherWay` | src/server.ts:164-165 | a non-empty summary matches when it contains the query or the query contains it, case-insensitively, and otherwise does not |
| `Server.EmptySummaryMatchesAll` | src/server.ts:165 | an event whose summary is "" matches every query |
| `Server.AbsentSummaryMatchesUndefined` | src/server.ts:165 | an event without a summary matches exactly the queries containing "undefined" |
| `Server.SameTitleMatches` | src/server.ts:164-165 | an event whose summary equals the query up to case always matches |
| `Server.CandidateAt` | src/server.ts:204-206 | `candidates[i]` is present exactly when i is in range |
| `Server.Resolve` | src/server.ts:199-211 | a selected event is always one of the candidates; a TypeError arises only when some candidate has no summary |
| `Server.FindBySummary` | src/server.ts:209 | the hit is the first candidate whose lower-cased summary contains the phrase; no hit means every candidate has a summary without it; a TypeError means a summary-less candidate comes before any hit |
| `Server.ResolveByParsedNumber` | src/server.ts:199-201 | any phrase whose `parseInt` is a number k in 1..N selects candidate k-1, whatever ordinal words it also holds |
| `Server.ResolveByNumber` | src/server.ts:199-201 | a typed number k in 1..N selects candidate k-1 |
| `Server.ListedNumberSelectsListedCandidate` | src/server.ts:183-201 | line k of the candidate list starts with "k+1. ", and typing that number back selects candidate k |
| `Server.ResolveFirstWord` | src/server.ts:204 | with no in-range number, "first" or "1st" selects `candidates[0]`, if it exists |
| `Server.ResolveSecondWord` | src/server.ts:205 | with no in-range number and neither first/1st, "second" or "2nd" selects `candidates[1]`, if it exists |
| `Server.ResolveThirdWord` | src/server.ts:206 | with no in-range number and none of first/1st/second/2nd, "third" or "3rd" selects `candidates[2]`, if it exists |
| `Server.ThirdOfTooFewUnresolved` | src/server.ts:206-210 | in that case, with fewer than three candidates, the selection resolves to nothing and no summary search is tried |
| `Server.ResolveSummaryStep` | src/server.ts:199-213 | with no number in range and no ordinal word, nothing is selected exactly when every candidate has a summary and none contains the phrase; the search fails with a TypeError exactly when a summary-less candidate comes before any hit |
| `Server.ResolveBySummary` | src/server.ts:207-210 | with no number in range (an out-of-range number included) and no ordinal word, the first candidate whose summary contains the phrase is selected |
| `Server.ListTurn` | src/server.ts:114-118 | LIST_EVENTS sends exactly one list request, touches neither slot and replies "Here are your upcoming events:\n" plus the list |
| `Server.ForcedCreateTurn` | src/server.ts:121-135 | sends exactly one insert of the given record, with no availability check; on success stores it and clears `pendingEvent` when asked; on rejection commits nothing |
| `Server.CheckedCreateTurn` | src/server.ts:137-153 | a free window gives exactly one insert and clears `pendingEvent`; a busy one creates nothing, stores the parsed intent as pending and lists every conflict |
| `Server.CancelTurn` | src/server.ts:155-191 | 0 matches: no delete and no change; 1 match: that event is deleted and the candidates are left as they were; more: the candidates become exactly the matches, listed with numbered lines |
| `Server.SelectTurn` | src/server.ts:192-223 | a resolved selection deletes that candidate and clears the candidates; an unresolved one deletes nothing and keeps them; a missing phrase or a summary-less candidate is a 500 with no request |
| `Server.HandleTurn` | src/server.ts:112-242 | the effect of the route the intent takes; every reply echoes the intent and is non-empty; a 500 leaves both slots and the events as they were |
| `Scenarios.ConflictThenScheduleAnyway` | src/server.ts:137-235 | a conflicting create, then "schedule anyway", then "schedule anyway" again: the conflict reply names the existing event, exactly one insert with the first turn's payload follows, the repeat falls back, and nothing stays pending |
| `Scenarios.CancelThenSelectSecond` | src/server.ts:155-223 | a cancel matching three events lists candidates; "2" deletes the second one and clears the candidates |
| `Scenarios.SecondOneSelection` | src/server.ts:204-205 | with two candidates, "the second one" selects the second |
| `Scenarios.SummarySelection` | src/server.ts:207-210 | with candidates "Standup" and "Design Review", "review" selects "Design Review" |

## Left out

- HTTP, OAuth and session plumbing: Express, passport, the session middleware, CORS, static serving and the 401 check (src/server.ts:1-110, 245-264). The handler is entered with an already parsed intent.
- The language-model classifier in src/agent.ts: the intent record is an input. Only its failure record (`ClassifierFailed`) is modelled. Intent fields whose JSON type is not a string are not modelled.
- src/auth.ts and src/index.ts are not part of this model. They cover OAuth and file I/O, and a command-line entry point that nothing runs.
- Date formatting with `toLocaleString` depends on locale and time zone. It is the parameter `formatDate` of `HandleTurn`.
- Google's calendar semantics:
  - Which events fall in a window is the abstract relation `overlaps`.
  - The `orderBy: 'startTime'` ordering is not modelled: results come in store order.
  - Remote rejections (network, authorisation, malformed payloads) are the set `rejected`, chosen by the environment and not derived from request contents.
  - Event ids and `htmlLink` values of created events are stand-ins (`CreatedId`, `LinkFor`).
- Reading and writing `contacts.json` (src/contacts.ts:14-15, 23, 27-29, 37) is not modelled. A failure to write the file is not modelled either.
- `getEmail` on a name such as "constructor" returns an inherited `Object.prototype` member in JavaScript. The model's map has no such entries.
- `Lower`: only ASCII letters are mapped. The full Unicode case mapping of `toLowerCase` is not modelled.
- `ParseInt`: numbers beyond 2^53 are exact integers here, not rounded doubles. This cannot change whether an index is in range.
- Concurrent requests racing on the same session.
- `console.time` and logging.
- The frontends (frontend/, frontend-new/, client/) are React UI.

=== FILE: calendar.dfy ===
/**
 * The calendar gateway (`CalendarService`): list, availability check, create and
 * delete against a remote calendar.  The remote calendar is modelled as an
 * in-memory store of events, a log of the requests sent to it, and the set of
 * request numbers it rejects (network, authorisation or remote errors).  Which
 * stored events fall inside a time window is the remote calendar's business and
 * is kept abstract as the relation `overlaps`.
 */
module Calendar {
  import opened Wrappers
  import opened JsText
  import opened Intents

  /** `{dateTime, date, timeZone}` of an event's start or end. */
  datatype EventTime = EventTime(dateTime: Option<string>, date: Option<string>, timeZone: Option<string>)

  datatype Event = Event(
    id: string,
    summary: Option<string>,
    location: Option<string>,
    description: Option<string>,
    start: EventTime,
    end: EventTime,
    attendees: Option<seq<Attendee>>,
    htmlLink: string)

  datatype Reminder = Reminder(methodName: string, minutes: nat)

  datatype Reminders = Reminders(useDefault: bool, overrides: seq<Reminder>)

  /** The `resource` sent with an insert request. */
  datatype EventPayload = EventPayload(
    summary: Option<string>,
    location: Option<string>,
    description: Option<string>,
    start: EventTime,
    end: EventTime,
    attendees: seq<Attendee>,
    reminders: Reminders)

  /** A request to the remote calendar (always on calendar 'primary', single events, ordered by start). */
  datatype Request =
    | ListRequest(timeMin: Option<string>, timeMax: Option<string>, maxResults: nat)
    | InsertRequest(resource: EventPayload)
    | DeleteRequest(eventId: string)

  /** The window relation of the remote calendar: does an event fall in `[timeMin, timeMax]`? */
  type Window = (Event, Option<string>, Option<string>) -> bool

  /** The result cap of availability checks and event fetches. */
  const MaxResults: nat := 10

  const ApiError := "the calendar API returned an error"

  const NoEventsText := "No upcoming events found."

  // ---------------------------------------------------------------- store queries

  /** The stored events inside the window, in store order. */
  function InWindow(store: seq<Event>, overlaps: Window, timeMin: Option<string>, timeMax: Option<string>): (r: seq<Event>)
    ensures |r| <= |store|
    ensures forall e :: e in r <==> e in store && overlaps(e, timeMin, timeMax)
    decreases |store|
  {
    if store == [] then []
    else
      var rest := InWindow(store[1..], overlaps, timeMin, timeMax);
      if overlaps(store[0], timeMin, timeMax) then [store[0]] + rest else rest
  }

  /** What one list request returns: the first `limit` events inside the window. */
  function Fetch(store: seq<Event>, overlaps: Window, timeMin: Option<string>, timeMax: Option<string>, limit: nat): (r: seq<Event>)
    ensures |r| <= limit
    ensures forall e :: e in r ==> e in store && overlaps(e, timeMin, timeMax)
    ensures |r| <= |InWindow(store, overlaps, timeMin, timeMax)|
    ensures r == InWindow(store, overlaps, timeMin, timeMax)[..|r|]
  {
    var all := InWindow(store, overlaps, timeMin, timeMax);
    if |all| <= limit then all else all[..limit]
  }

  /** When every stored event is in the window, the window is the whole store. */
  lemma {:induction false} InWindowAll(store: seq<Event>, overlaps: Window, timeMin: Option<string>, timeMax: Option<string>)
    requires forall e :: e in store ==> overlaps(e, timeMin, timeMax)
    ensures InWindow(store, overlaps, timeMin, timeMax) == store
    decreases |store|
  {
    if store != [] {
      InWindowAll(store[1..], overlaps, timeMin, timeMax);
      assert [store[0]] + store[1..] == store;
    }
  }

  /** Prepending an event and concatenating regroup freely. */
  lemma ConsAppend(e: Event, x: seq<Event>, y: seq<Event>)
    ensures [e] + (x + y) == ([e] + x) + y
  {
  }

  /** One unfolding of `InWindow` on a store that starts with `e`. */
  lemma InWindowCons(e: Event, rest: seq<Event>, overlaps: Window, timeMin: Option<string>, timeMax: Option<string>)
    ensures InWindow([e] + rest, overlaps, timeMin, timeMax) ==
            if overlaps(e, timeMin, timeMax) then [e] + InWindow(rest, overlaps, timeMin, timeMax)
            else InWindow(rest, overlaps, timeMin, timeMax)
  {
    assert ([e] + rest)[1..] == rest;
  }

  /** The window of a concatenation is the concatenation of the windows: store order and repeats are kept. */
  lemma {:induction false} InWindowAppend(a: seq<Event>, b: seq<Event>, overlaps: Window, timeMin: Option<string>, timeMax: Option<string>)
    ensures InWindow(a + b, overlaps, timeMin, timeMax) ==
            InWindow(a, overlaps, timeMin, timeMax) + InWindow(b, overlaps, timeMin, timeMax)
    decreases |a|
  {
    if a == [] {
      assert a + b == b;
    } else {
      var t := a[1..];
      assert a == [a[0]] + t;
      ConsAppend(a[0], t, b);
      InWindowCons(a[0], t, overlaps, timeMin, timeMax);
      InWindowCons(a[0], t + b, overlaps, timeMin, timeMax);
      InWindowAppend(t, b, overlaps, timeMin, timeMax);
      ConsAppend(a[0], InWindow(t, overlaps, timeMin, timeMax), InWindow(b, overlaps, timeMin, timeMax));
    }
  }

  /** A single stored event is in the window exactly when the window relation admits it. */
  lemma InWindowSingle(e: Event, overlaps: Window, timeMin: Option<string>, timeMax: Option<string>)
    ensures InWindow([e], overlaps, timeMin, timeMax) == if overlaps(e, timeMin, timeMax) then [e] else []
  {
    assert [e][1..] == [];
  }

  /** A list request with a positive cap comes back empty exactly when no stored event is in the window. */
  lemma FetchEmptyIff(store: seq<Event>, overlaps: Window, timeMin: Option<string>, timeMax: Option<string>, limit: nat)
    requires limit > 0
    ensures Fetch(store, overlaps, timeMin, timeMax, limit) == [] <==>
            forall e :: e in store ==> !overlaps(e, timeMin, timeMax)
  {
    var all := InWindow(store, overlaps, timeMin, timeMax);
    if all != [] {
      assert all[0] in all;
      assert Fetch(store, overlaps, timeMin, timeMax, limit)[0] == all[0];
    }
  }

  predicate HasId(store: seq<Event>, id: string) {
    exists e :: e in store && e.id == id
  }

  /** The store after the event with the given id is deleted. */
  function RemoveId(store: seq<Event>, id: string): (r: seq<Event>)
    ensures forall e :: e in r <==> e in store && e.id != id
    ensures !HasId(r, id)
    ensures HasId(store, id) ==> |r| < |store|
    ensures !HasId(store, id) ==> r == store
    decreases |store|
  {
    if store == [] then []
    else
      var rest := RemoveId(store[1..], id);
      if store[0].id == id then rest else [store[0]] + rest
  }

  /** One unfolding of `RemoveId` on a store that starts with `e`. */
  lemma RemoveIdCons(e: Event, rest: seq<Event>, id: string)
    ensures RemoveId([e] + rest, id) == if e.id == id then RemoveId(rest, id) else [e] + RemoveId(rest, id)
  {
    assert ([e] + rest)[1..] == rest;
  }

  /** Deleting from a concatenation deletes from each part: the order and repeats of the other events are kept. */
  lemma {:induction false} RemoveIdAppend(a: seq<Event>, b: seq<Event>, id: string)
    ensures RemoveId(a + b, id) == RemoveId(a, id) + RemoveId(b, id)
    decreases |a|
  {
    if a == [] {
      assert a + b == b;
    } else {
      var t := a[1..];
      assert a == [a[0]] + t;
      ConsAppend(a[0], t, b);
      RemoveIdCons(a[0], t, id);
      RemoveIdCons(a[0], t + b, id);
      RemoveIdAppend(t, b, id);
      ConsAppend(a[0], RemoveId(t, id), RemoveId(b, id));
    }
  }

  /** A single event is dropped exactly when it carries the deleted id. */
  lemma RemoveIdSingle(e: Event, id: string)
    ensures RemoveId([e], id) == if e.id == id then [] else [e]
  {
    assert [e][1..] == [];
  }

  // ---------------------------------------------------------------- rendering

  /** `event.start.dateTime || event.start.date`. */
  function StartValue(e: Event): Option<string> {
    Or(e.start.dateTime, e.start.date)
  }

  /** One line of the event list: "<start> - <summary>". */
  function ListLine(e: Event): (line: string)
    ensures StartsWith(line, Show(StartValue(e)) + " - ")
    ensures line[|Show(StartValue(e)) + " - "|..] == Show(e.summary)
  {
    Show(StartValue(e)) + " - " + Show(e.summary)
  }

  function ListLines(events: seq<Event>): (lines: seq<string>)
    ensures |lines| == |events|
    ensures forall i :: 0 <= i < |events| ==> lines[i] == ListLine(events[i])
  {
    seq(|events|, i requires 0 <= i < |events| => ListLine(events[i]))
  }

  /** The text `listEvents` returns for the fetched events. */
  function RenderList(events: seq<Event>): (text: string)
    ensures events == [] ==> text == NoEventsText
    ensures events != [] ==> StartsWith(text, ListLine(events[0]))
    ensures |events| > 1 ==> StartsWith(text, ListLine(events[0]) + "\n")
  {
    if events == [] then NoEventsText else Join(ListLines(events), "\n")
  }

  /**
   * The list text is the "no events" message for an empty window, and otherwise
   * splits back into one "<start> - <summary>" line per event, in order, as long as
   * no start or summary itself holds a line break.
   */
  lemma RenderListLines(events: seq<Event>)
    requires forall i :: 0 <= i < |events| ==> '\n' !in ListLine(events[i])
    ensures events == [] ==> RenderList(events) == NoEventsText
    ensures events != [] ==> Split(RenderList(events), '\n') == ListLines(events)
  {
    if events != [] {
      SplitJoin(ListLines(events), '\n');
    }
  }

  // ---------------------------------------------------------------- requests

  /** The list request `listEvents` sends: `timeMin` defaults to now, `timeMax` is sent only when given. */
  function ListQuery(timeMin: Option<string>, timeMax: Option<string>, now: string, maxResults: nat): (q: Request)
    ensures q.ListRequest? && q.maxResults == maxResults
    ensures q.timeMin == (if Truthy(timeMin) then timeMin else Some(now))
    ensures q.timeMax.Some? <==> Truthy(timeMax)
    ensures q.timeMax.Some? ==> q.timeMax == timeMax
  {
    ListRequest(Or(timeMin, Some(now)), if Truthy(timeMax) then timeMax else None, maxResults)
  }

  /** The time zone written into a payload: `process.env.TIMEZONE || 'UTC'`. */
  function PayloadTimeZone(env: Option<string>): (tz: string)
    ensures Truthy(env) ==> tz == env.value
    ensures !Truthy(env) ==> tz == "UTC"
  {
    Show(Or(env, Some("UTC")))
  }

  /** The insert payload built from an intent-shaped record. */
  function Payload(details: Intent, timeZoneEnv: Option<string>): (p: EventPayload)
    ensures p.summary == details.summary && p.location == details.location
    ensures p.description == details.description
    ensures p.start.dateTime == details.startTime && p.end.dateTime == details.endTime
    ensures p.start.date == None && p.end.date == None
    ensures p.start.timeZone == p.end.timeZone == Some(PayloadTimeZone(timeZoneEnv))
    ensures details.attendees.Some? ==> p.attendees == details.attendees.value
    ensures details.attendees.None? ==> p.attendees == []
    ensures p.reminders == Reminders(false, [Reminder("email", 24 * 60), Reminder("popup", 10)])
  {
    var tz := Some(PayloadTimeZone(timeZoneEnv));
    EventPayload(
      details.summary, details.location, details.description,
      EventTime(details.startTime, None, tz),
      EventTime(details.endTime, None, tz),
      if details.attendees.Some? then details.attendees.value else [],
      Reminders(false, [Reminder("email", 24 * 60), Reminder("popup", 10)]))
  }

  /**
   * The payload only depends on the event fields of the record: the intent kind and
   * the conflict flag never reach the calendar.
   */
  lemma PayloadIgnoresControlFields(a: Intent, b: Intent, timeZoneEnv: Option<string>)
    requires a.summary == b.summary && a.location == b.location && a.description == b.description
    requires a.startTime == b.startTime && a.endTime == b.endTime && a.attendees == b.attendees
    ensures Payload(a, timeZoneEnv) == Payload(b, timeZoneEnv)
  {
  }

  /** The id the remote calendar gives the event created by request number `n`. */
  function CreatedId(n: nat): string {
    "evt" + NatToString(n)
  }

  function LinkFor(id: string): string {
    "https://www.google.com/calendar/event?eid=" + id
  }

  /** The event the remote calendar stores for an insert payload. */
  function Stored(p: EventPayload, id: string): (e: Event)
    ensures e.id == id && e.summary == p.summary && e.start == p.start && e.end == p.end
    ensures e.attendees == Some(p.attendees)
  {
    Event(id, p.summary, p.location, p.description, p.start, p.end, Some(p.attendees), LinkFor(id))
  }

  /** What `createEvent` returns. */
  function CreatedText(id: string): string {
    "Event created: " + LinkFor(id)
  }

  const DeletedText := "Event deleted successfully."

  /** The result of an availability check. */
  datatype Availability = Availability(available: bool, conflicts: seq<Event>)

  // ---------------------------------------------------------------- the gateway

  class CalendarService {
    /** The events of the remote calendar, in the order list requests return them. */
    var events: seq<Event>
    /** Every request sent to the remote calendar so far, oldest first. */
    var requests: seq<Request>
    /** The numbers (positions in `requests`) of the requests the remote calendar rejects. */
    const rejected: set<nat>
    /** Which events fall in a window. */
    const overlaps: Window
    /** The `TIMEZONE` environment variable. */
    const timeZoneEnv: Option<string>

    constructor(store: seq<Event>, rejected: set<nat>, overlaps: Window, timeZoneEnv: Option<string>)
      ensures events == store && requests == []
      ensures this.rejected == rejected && this.overlaps == overlaps && this.timeZoneEnv == timeZoneEnv
    {
      events := store;
      requests := [];
      this.rejected := rejected;
      this.overlaps := overlaps;
      this.timeZoneEnv := timeZoneEnv;
    }

    /** Does the remote calendar reject request number `n`? */
    predicate Rejects(n: nat) {
      n in rejected
    }

    /** `listEvents`: the rendered list of the first `maxResults` events of the window. */
    method ListEvents(timeMin: Option<string>, timeMax: Option<string>, now: string, maxResults: nat := 10)
      returns (r: Result<string>)
      modifies this`requests
      ensures requests == old(requests) + [ListQuery(timeMin, timeMax, now, maxResults)]
      ensures Rejects(|old(requests)|) ==> r == Err(ApiError)
      ensures !Rejects(|old(requests)|) ==>
                var q := ListQuery(timeMin, timeMax, now, maxResults);
                r == Ok(RenderList(Fetch(events, overlaps, q.timeMin, q.timeMax, maxResults)))
    {
      var q := ListQuery(timeMin, timeMax, now, maxResults);
      var n := |requests|;
      requests := requests + [q];
      if Rejects(n) {
        return Err(ApiError);
      }
      var found := Fetch(events, overlaps, q.timeMin, q.timeMax, maxResults);
      return Ok(RenderList(found));
    }

    /** `checkAvailability`: the window is free exactly when the fetch finds nothing. */
    method CheckAvailability(startTime: Option<string>, endTime: Option<string>)
      returns (r: Result<Availability>)
      modifies this`requests
      ensures requests == old(requests) + [ListRequest(startTime, endTime, MaxResults)]
      ensures Rejects(|old(requests)|) ==> r == Err(ApiError)
      ensures !Rejects(|old(requests)|) ==>
                && r.Ok?
                && r.value.conflicts == Fetch(events, overlaps, startTime, endTime, MaxResults)
                && |r.value.conflicts| <= MaxResults
                && (r.value.available <==> r.value.conflicts == [])
                && (r.value.available <==> forall e :: e in events ==> !overlaps(e, startTime, endTime))
    {
      var n := |requests|;
      requests := requests + [ListRequest(startTime, endTime, MaxResults)];
      if Rejects(n) {
        return Err(ApiError);
      }
      var found := Fetch(events, overlaps, startTime, endTime, MaxResults);
      FetchEmptyIff(events, overlaps, startTime, endTime, MaxResults);
      return Ok(Availability(|found| == 0, found));
    }

    /** `createEvent`: insert the payload built from `details` and report its link. */
    method CreateEvent(details: Intent) returns (r: Result<string>)
      modifies this
      ensures requests == old(requests) + [InsertRequest(Payload(details, timeZoneEnv))]
      ensures Rejects(|old(requests)|) ==> r == Err(ApiError) && events == old(events)
      ensures !Rejects(|old(requests)|) ==>
                var id := CreatedId(|old(requests)|);
                && events == old(events) + [Stored(Payload(details, timeZoneEnv), id)]
                && r == Ok(CreatedText(id))
    {
      var payload := Payload(details, timeZoneEnv);
      var n := |requests|;
      requests := requests + [InsertRequest(payload)];
      if Rejects(n) {
        return Err(ApiError);
      }
      var id := CreatedId(n);
      events := events + [Stored(payload, id)];
      return Ok(CreatedText(id));
    }

    /** `getEvents`: the first ten events of the window. */
    method GetEvents(timeMin: Option<string>, timeMax: Option<string>) returns (r: Result<seq<Event>>)
      modifies this`requests
      ensures requests == old(requests) + [ListRequest(timeMin, timeMax, MaxResults)]
      ensures Rejects(|old(requests)|) ==> r == Err(ApiError)
      ensures !Rejects(|old(requests)|) ==> r == Ok(Fetch(events, overlaps, timeMin, timeMax, MaxResults))
    {
      var n := |requests|;
      requests := requests + [ListRequest(timeMin, timeMax, MaxResults)];
      if Rejects(n) {
        return Err(ApiError);
      }
      return Ok(Fetch(events, overlaps, timeMin, timeMax, MaxResults));
    }

    /**
     * `deleteEvent`: remove the event with the given id.  The remote calendar also
     * rejects the request when no such event is stored (any more).
     */
    method DeleteEvent(eventId: string) returns (r: Result<string>)
      modifies this
      ensures requests == old(requests) + [DeleteRequest(eventId)]
      ensures Rejects(|old(requests)|) || !HasId(old(events), eventId) ==>
                r == Err(ApiError) && events == old(events)
      ensures !Rejects(|old(requests)|) && HasId(old(events), eventId) ==>
                r == Ok(DeletedText) && events == RemoveId(old(events), eventId)
    {
      var n := |requests|;
      requests := requests + [DeleteRequest(eventId)];
      if Rejects(n) || !HasId(events, eventId) {
        return Err(ApiError);
      }
      events := RemoveId(events, eventId);
      return Ok(DeletedText);
    }
  }
}

=== FILE: contacts.dfy ===
/**
 * The contact directory (`ContactService`): a name-to-email dictionary whose
 * lookups and writes go through the lower-cased name.  Reading and writing the
 * backing JSON file is not modelled; the constructor receives the parsed file
 * content, if the file exists.
 */
module Contacts {
  import opened Wrappers
  import opened JsText

  /** The directory written when no contacts file exists yet. */
  function DefaultContacts(): (m: map<string, string>)
    ensures m.Keys == {"alice", "bob", "team"}
    ensures m["alice"] == "alice@example.com" && m["bob"] == "bob@example.com"
    ensures m["team"] == "team@example.com"
  {
    map["alice" := "alice@example.com", "bob" := "bob@example.com", "team" := "team@example.com"]
  }

  /** `contacts[name.toLowerCase()]`, with `None` for an absent key. */
  function Lookup(directory: map<string, string>, name: string): (r: Option<string>)
    ensures r.Some? <==> Lower(name) in directory
    ensures r.Some? ==> r.value == directory[Lower(name)]
  {
    if Lower(name) in directory then Some(directory[Lower(name)]) else None
  }

  /** Lookups ignore case: names that lower-case alike find the same entry. */
  lemma LookupIgnoresCase(directory: map<string, string>, a: string, b: string)
    requires Lower(a) == Lower(b)
    ensures Lookup(directory, a) == Lookup(directory, b)
  {
  }

  /** A key holding an upper-case letter (possible only in a loaded file) is never found. */
  lemma UpperCaseKeyUnreachable(directory: map<string, string>, key: string, name: string)
    requires key in directory && HasUpper(key)
    ensures Lower(name) != key
  {
  }

  /** Two spellings of a name that differ only in the case of ASCII letters. */
  predicate SameUpToCase(a: string, b: string) {
    |a| == |b| &&
    forall i :: 0 <= i < |a| ==>
      a[i] == b[i] ||
      (IsUpper(a[i]) && b[i] as int == a[i] as int + 32) ||
      (IsUpper(b[i]) && a[i] as int == b[i] as int + 32)
  }

  /** Spellings that differ only in letter case find the same entry. */
  lemma LookupCaseVariants(directory: map<string, string>, a: string, b: string)
    requires SameUpToCase(a, b)
    ensures Lookup(directory, a) == Lookup(directory, b)
  {
    assert Lower(a) == Lower(b) by {
      forall i | 0 <= i < |a|
        ensures Lower(a)[i] == Lower(b)[i]
      {
      }
    }
  }

  /** The default directory answers every spelling of its three names. */
  lemma DefaultLookup()
    ensures Lookup(DefaultContacts(), "Alice") == Some("alice@example.com")
    ensures Lookup(DefaultContacts(), "BOB") == Some("bob@example.com")
    ensures Lookup(DefaultContacts(), "carol") == None
  {
    assert Lower("Alice") == "alice";
    assert Lower("BOB") == "bob";
    assert Lower("carol") == "carol";
  }

  class ContactService {
    var contacts: map<string, string>

    /** `loadContacts`: the stored directory as parsed, or the three defaults when there is none. */
    constructor(stored: Option<map<string, string>>)
      ensures stored.Some? ==> contacts == stored.value
      ensures stored.None? ==> contacts == DefaultContacts()
    {
      if stored.Some? {
        contacts := stored.value;
      } else {
        contacts := DefaultContacts();
      }
    }

    method GetEmail(name: string) returns (email: Option<string>)
      ensures email == Lookup(contacts, name)
    {
      var key := Lower(name);
      if key in contacts {
        email := Some(contacts[key]);
      } else {
        email := None;
      }
    }

    /** `addContact`: set (or overwrite) the entry of the lower-cased name; nothing else changes. */
    method AddContact(name: string, email: string)
      modifies this
      ensures contacts.Keys == old(contacts).Keys + {Lower(name)}
      ensures forall other :: Lower(other) == Lower(name) ==> Lookup(contacts, other) == Some(email)
      ensures forall k :: k in old(contacts) && k != Lower(name) ==> contacts[k] == old(contacts)[k]
    {
      contacts := contacts[Lower(name) := email];
    }

    method GetAllContacts() returns (all: map<string, string>)
      ensures all == contacts
    {
      all := contacts;
    }
  }
}

=== FILE: intents.dfy ===
/**
 * The intent record the classifier hands to the query handler.  The classifier
 * itself (a call to a hosted language model) is not part of this model: the
 * handler receives its output as input.
 */
module Intents {
  import opened Wrappers

  /** An attendee object, `{email, displayName}`, as both intents and calendar events carry it. */
  datatype Attendee = Attendee(email: Option<string>, displayName: Option<string>)

  /** The `intent` tag; every tag the handler does not compare against behaves as `Unknown`. */
  datatype IntentKind = ListEvents | CreateEvent | CancelEvent | SelectOption | Unknown

  /** The parsed JSON record; an absent `ignoreConflicts` is falsy and reads as `false`. */
  datatype Intent = Intent(
    kind: IntentKind,
    summary: Option<string>,
    startTime: Option<string>,
    endTime: Option<string>,
    attendees: Option<seq<Attendee>>,
    location: Option<string>,
    description: Option<string>,
    ignoreConflicts: bool)

  /** The kind the handler's comparisons give an `intent` tag. */
  function KindOf(tag: string): (k: IntentKind)
    ensures k == ListEvents <==> tag == "LIST_EVENTS"
    ensures k == CreateEvent <==> tag == "CREATE_EVENT"
    ensures k == CancelEvent <==> tag == "CANCEL_EVENT"
    ensures k == SelectOption <==> tag == "SELECT_OPTION"
    ensures k == Unknown <==>
            tag !in {"LIST_EVENTS", "CREATE_EVENT", "CANCEL_EVENT", "SELECT_OPTION"}
  {
    if tag == "LIST_EVENTS" then ListEvents
    else if tag == "CREATE_EVENT" then CreateEvent
    else if tag == "CANCEL_EVENT" then CancelEvent
    else if tag == "SELECT_OPTION" then SelectOption
    else Unknown
  }

  /** What the classifier returns when its call or its JSON parse fails: `{intent: 'UNKNOWN'}`. */
  function ClassifierFailed(): (i: Intent)
    ensures i.kind == Unknown && !i.ignoreConflicts
    ensures i.summary == None && i.startTime == None && i.endTime == None
  {
    Intent(KindOf("UNKNOWN"), None, None, None, None, None, None, false)
  }
}

=== FILE: jstext.dfy ===
/**
 * The JavaScript string operations the calendar assistant relies on:
 * `toLowerCase`, `includes`, `Array.prototype.join`, the rendering of
 * `undefined` inside template literals and `||` on strings, and `parseInt`.
 */
module JsText {
  import opened Wrappers

  // ---------------------------------------------------------------- values

  /** JavaScript truthiness of an optional string: present and not empty. */
  predicate Truthy(s: Option<string>) {
    s.Some? && s.value != ""
  }

  /** `a || b` on two optional strings. */
  function Or(a: Option<string>, b: Option<string>): (r: Option<string>)
    ensures Truthy(a) ==> r == a
    ensures !Truthy(a) ==> r == b
  {
    if Truthy(a) then a else b
  }

  /** How a template literal `${x}` renders an optional string. */
  function Show(s: Option<string>): string {
    if s.Some? then s.value else "undefined"
  }

  /** How `Array.prototype.join` renders an optional string element: `undefined` becomes "". */
  function JoinText(s: Option<string>): string {
    if s.Some? then s.value else ""
  }

  // ---------------------------------------------------------------- case

  predicate IsUpper(c: char) {
    'A' <= c <= 'Z'
  }

  /** `toLowerCase` on one character (ASCII letters only). */
  function LowerChar(c: char): char {
    if IsUpper(c) then (c as int + 32) as char else c
  }

  predicate HasUpper(s: string) {
    exists i :: 0 <= i < |s| && IsUpper(s[i])
  }

  /** `String.prototype.toLowerCase`, character by character. */
  function Lower(s: string): (r: string)
    ensures |r| == |s|
    ensures !HasUpper(r)
    ensures forall i :: 0 <= i < |s| && !IsUpper(s[i]) ==> r[i] == s[i]
    ensures forall i :: 0 <= i < |s| && IsUpper(s[i]) ==> r[i] as int == s[i] as int + 32
  {
    seq(|s|, i requires 0 <= i < |s| => LowerChar(s[i]))
  }

  /** Lower-casing a string without upper-case letters changes nothing. */
  lemma LowerKeeps(s: string)
    requires !HasUpper(s)
    ensures Lower(s) == s
  {
  }

  /** Lower-casing twice is lower-casing once. */
  lemma LowerIdempotent(s: string)
    ensures Lower(Lower(s)) == Lower(s)
  {
    LowerKeeps(Lower(s));
  }

  // ---------------------------------------------------------------- includes

  predicate StartsWith(s: string, prefix: string) {
    |prefix| <= |s| && s[..|prefix|] == prefix
  }

  /** `s.includes(needle)`: `needle` occurs in `s` at some position. */
  predicate Includes(s: string, needle: string)
    ensures Includes(s, needle) ==> |needle| <= |s|
    decreases |s|
  {
    StartsWith(s, needle) || (|s| > 0 && Includes(s[1..], needle))
  }

  /** `needle` occurs in `s` starting at position `i`. */
  predicate OccursAt(s: string, needle: string, i: int) {
    0 <= i && i + |needle| <= |s| && s[i..i + |needle|] == needle
  }

  /** `Includes` finds exactly the positions at which `needle` occurs. */
  lemma {:induction false} IncludesAt(s: string, needle: string)
    ensures Includes(s, needle) <==> exists i :: OccursAt(s, needle, i)
    decreases |s|
  {
    if StartsWith(s, needle) {
      assert OccursAt(s, needle, 0);
    } else if |s| == 0 {
      assert forall i :: !OccursAt(s, needle, i);
    } else {
      IncludesAt(s[1..], needle);
      if Includes(s[1..], needle) {
        var i :| OccursAt(s[1..], needle, i);
        OccursShift(s, needle, i);
      }
      if exists i :: OccursAt(s, needle, i) {
        var i :| OccursAt(s, needle, i);
        assert i != 0;
        OccursShift(s, needle, i - 1);
      }
    }
  }

  /** Dropping the first character moves every occurrence one place left. */
  lemma OccursShift(s: string, needle: string, i: int)
    requires |s| > 0 && 0 <= i
    ensures OccursAt(s[1..], needle, i) <==> OccursAt(s, needle, i + 1)
  {
    var n := |needle|;
    if i + 1 + n <= |s| {
      assert s[1..][i..i + n] == s[i + 1..i + 1 + n];
    }
  }

  /** A needle holding a character the text lacks does not occur in it. */
  lemma MissingCharExcludes(s: string, needle: string, c: char)
    requires c in needle && c !in s
    ensures !Includes(s, needle)
  {
    IncludesAt(s, needle);
  }

  /** The empty string occurs in every string. */
  lemma IncludesEmpty(s: string)
    ensures Includes(s, "")
  {
    assert StartsWith(s, "");
  }

  /** A concatenation starts with its first part. */
  lemma StartsWithConcat(prefix: string, rest: string)
    ensures StartsWith(prefix + rest, prefix)
  {
    assert (prefix + rest)[..|prefix|] == prefix;
  }

  /** `head + body + tail` starts with `head` and contains `body`. */
  lemma StartsAndContains(head: string, body: string, tail: string)
    ensures StartsWith(head + body + tail, head)
    ensures Includes(head + body + tail, body)
  {
    StartsWithConcat(head, body + tail);
    assert head + (body + tail) == head + body + tail;
    IncludesSelf(body);
    IncludesWithin(head, body, tail, body);
  }

  /** Every string occurs in itself. */
  lemma IncludesSelf(s: string)
    ensures Includes(s, s)
  {
    assert StartsWith(s, s);
  }

  /** An occurrence in `s` is also an occurrence in any text around `s`. */
  lemma IncludesWithin(before: string, s: string, after: string, needle: string)
    requires Includes(s, needle)
    ensures Includes(before + s + after, needle)
  {
    IncludesAt(s, needle);
    var i :| OccursAt(s, needle, i);
    var t := before + s + after;
    var j := |before| + i;
    assert t[j..j + |needle|] == s[i..i + |needle|];
    assert OccursAt(t, needle, j);
    IncludesAt(t, needle);
  }

  // ---------------------------------------------------------------- join / split

  /** `parts.join(sep)`. */
  function Join(parts: seq<string>, sep: string): (r: string)
    ensures |parts| == 0 ==> r == ""
    ensures |parts| > 0 ==> StartsWith(r, parts[0])
    ensures |parts| > 1 ==> StartsWith(r, parts[0] + sep)
    decreases |parts|
  {
    if |parts| == 0 then ""
    else if |parts| == 1 then
      assert parts[0][..|parts[0]|] == parts[0];
      parts[0]
    else
      var rest := Join(parts[1..], sep);
      assert (parts[0] + sep + rest)[..|parts[0]|] == parts[0];
      assert (parts[0] + sep + rest)[..|parts[0] + sep|] == parts[0] + sep;
      parts[0] + sep + rest
  }

  /** Every part is found in the joined text. */
  lemma {:induction false} JoinIncludesEach(parts: seq<string>, sep: string, k: nat)
    requires k < |parts|
    ensures Includes(Join(parts, sep), parts[k])
    decreases |parts|
  {
    if |parts| == 1 {
      IncludesSelf(parts[0]);
      assert Join(parts, sep) == "" + parts[0] + "";
      IncludesWithin("", parts[0], "", parts[0]);
    } else if k == 0 {
      IncludesSelf(parts[0]);
      IncludesWithin("", parts[0], sep + Join(parts[1..], sep), parts[0]);
      assert Join(parts, sep) == "" + parts[0] + (sep + Join(parts[1..], sep));
    } else {
      JoinIncludesEach(parts[1..], sep, k - 1);
      IncludesWithin(parts[0] + sep, Join(parts[1..], sep), "", parts[k]);
      assert Join(parts, sep) == (parts[0] + sep) + Join(parts[1..], sep) + "";
    }
  }

  /** `s.split(sep)` for a one-character separator. */
  function Split(s: string, sep: char): (r: seq<string>)
    ensures |r| >= 1
    decreases |s|
  {
    if s == [] then [""]
    else
      var rest := Split(s[1..], sep);
      if s[0] == sep then [""] + rest else [[s[0]] + rest[0]] + rest[1..]
  }

  /** Splitting `line + [sep] + more` where `line` holds no separator. */
  lemma {:induction false} SplitAfterLine(line: string, sep: char, more: string)
    requires sep !in line
    ensures Split(line + [sep] + more, sep) == [line] + Split(more, sep)
    ensures Split(line, sep) == [line]
    decreases |line|
  {
    if line == [] {
      assert [] + [sep] + more == [sep] + more;
      assert ([sep] + more)[1..] == more;
    } else {
      SplitAfterLine(line[1..], sep, more);
      assert (line + [sep] + more)[1..] == line[1..] + [sep] + more;
      assert [line[0]] + line[1..] == line;
    }
  }

  /** Joining lines with a separator none of them contains, then splitting, gives the lines back. */
  lemma {:induction false} SplitJoin(lines: seq<string>, sep: char)
    requires |lines| >= 1
    requires forall i :: 0 <= i < |lines| ==> sep !in lines[i]
    ensures Split(Join(lines, [sep]), sep) == lines
    decreases |lines|
  {
    if |lines| == 1 {
      SplitAfterLine(lines[0], sep, "");
    } else {
      SplitJoin(lines[1..], sep);
      SplitAfterLine(lines[0], sep, Join(lines[1..], [sep]));
      assert lines == [lines[0]] + lines[1..];
    }
  }

  // ---------------------------------------------------------------- numbers

  function DigitChar(d: nat): char
    requires d < 10
  {
    ('0' as int + d) as char
  }

  /** The decimal rendering of a natural number, as `${n}` prints it. */
  function NatToString(n: nat): string
    decreases n
  {
    if n < 10 then [DigitChar(n)] else NatToString(n / 10) + [DigitChar(n % 10)]
  }

  /** The value of a character as a digit (letters count from 10), or 36 when it is none. */
  function DigitValue(c: char): nat {
    if '0' <= c <= '9' then c as int - '0' as int
    else if 'a' <= c <= 'z' then c as int - 'a' as int + 10
    else if 'A' <= c <= 'Z' then c as int - 'A' as int + 10
    else 36
  }

  /** The longest prefix of `s` made of digits of the given radix. */
  function DigitPrefix(s: string, radix: nat): (r: string)
    ensures |r| <= |s|
    decreases |s|
  {
    if s != [] && DigitValue(s[0]) < radix then [s[0]] + DigitPrefix(s[1..], radix) else []
  }

  /** The digit prefix is a prefix of `s`, made of digits, and stops at the first non-digit. */
  lemma {:induction false} DigitPrefixShape(s: string, radix: nat)
    ensures var r := DigitPrefix(s, radix);
            && r == s[..|r|]
            && (forall i :: 0 <= i < |r| ==> DigitValue(r[i]) < radix)
            && (|r| < |s| ==> DigitValue(s[|r|]) >= radix)
    decreases |s|
  {
    if s != [] && DigitValue(s[0]) < radix {
      DigitPrefixShape(s[1..], radix);
      var rest := DigitPrefix(s[1..], radix);
      assert DigitPrefix(s, radix) == [s[0]] + rest;
      assert s[..|rest| + 1] == [s[0]] + s[1..][..|rest|];
    }
  }

  /** The value of a string of digits read most significant first. */
  function DigitsValue(digits: string, radix: nat): nat
    decreases |digits|
  {
    if digits == [] then 0
    else DigitsValue(digits[..|digits| - 1], radix) * radix + DigitValue(digits[|digits| - 1]) % 36
  }

  /** The characters `parseInt` skips before the number: white space and line terminators. */
  predicate IsJsSpace(c: char) {
    var k := c as int;
    k == 0x09 || k == 0x0A || k == 0x0B || k == 0x0C || k == 0x0D || k == 0x20 ||
    k == 0xA0 || k == 0x1680 || (0x2000 <= k <= 0x200A) || k == 0x2028 || k == 0x2029 ||
    k == 0x202F || k == 0x205F || k == 0x3000 || k == 0xFEFF
  }

  function TrimStart(s: string): string
    decreases |s|
  {
    if s != [] && IsJsSpace(s[0]) then TrimStart(s[1..]) else s
  }

  /**
   * `parseInt(s)` with no radix: skip leading white space, read an optional sign,
   * switch to radix 16 after "0x" or "0X", then read the longest run of digits.
   * `None` stands for NaN, the result when that run is empty.
   */
  function ParseInt(s: string): (r: Option<int>)
    ensures r.Some? ==> var t := TrimStart(s);
              && t != []
              && (t[0] == '+' || t[0] == '-' || '0' <= t[0] <= '9')
    ensures r.Some? && r.value < 0 ==> TrimStart(s)[0] == '-'
  {
    var t := TrimStart(s);
    var negative := t != [] && t[0] == '-';
    var u := if t != [] && (t[0] == '-' || t[0] == '+') then t[1..] else t;
    var hex := |u| >= 2 && u[0] == '0' && (u[1] == 'x' || u[1] == 'X');
    var radix := if hex then 16 else 10;
    var digits := DigitPrefix(if hex then u[2..] else u, radix);
    DigitPrefixShape(if hex then u[2..] else u, radix);
    var value: int := DigitsValue(digits, radix);
    if digits == [] then None
    else if negative then Some(-value)
    else Some(value)
  }

  predicate AllDecimal(s: string) {
    forall i :: 0 <= i < |s| ==> '0' <= s[i] <= '9'
  }

  lemma {:induction false} NatToStringDigits(n: nat)
    ensures |NatToString(n)| >= 1
    ensures AllDecimal(NatToString(n))
    ensures n >= 1 ==> NatToString(n)[0] != '0'
    decreases n
  {
    if n >= 10 {
      NatToStringDigits(n / 10);
      var p := NatToString(n / 10);
      var s := p + [DigitChar(n % 10)];
      assert NatToString(n) == s;
      assert s[0] == p[0];
      forall i | 0 <= i < |s|
        ensures '0' <= s[i] <= '9'
      {
        if i < |p| { assert s[i] == p[i]; }
      }
    }
  }

  lemma {:induction false} NatToStringValue(n: nat)
    ensures DigitsValue(NatToString(n), 10) == n
    decreases n
  {
    if n >= 10 {
      NatToStringValue(n / 10);
      var p := NatToString(n / 10);
      var s := p + [DigitChar(n % 10)];
      assert NatToString(n) == s;
      assert s[..|s| - 1] == p;
      assert DigitValue(s[|s| - 1]) == n % 10;
    }
  }

  lemma {:induction false} DecimalPrefixAll(s: string)
    requires AllDecimal(s)
    ensures DigitPrefix(s, 10) == s
    decreases |s|
  {
    if s != [] {
      assert AllDecimal(s[1..]) by {
        forall i | 0 <= i < |s[1..]|
          ensures '0' <= s[1..][i] <= '9'
        {
          assert s[1..][i] == s[i + 1];
        }
      }
      DecimalPrefixAll(s[1..]);
      assert [s[0]] + s[1..] == s;
    }
  }

  /** The decimal prefix of a run of decimal digits followed by a non-digit is that run. */
  lemma {:induction false} DecimalPrefixStops(d: string, t: string)
    requires AllDecimal(d)
    requires t == [] || !('0' <= t[0] <= '9')
    ensures DigitPrefix(d + t, 10) == d
    decreases |d|
  {
    if d == [] {
      assert d + t == t;
      if t != [] {
        assert DigitValue(t[0]) >= 10;
      }
    } else {
      assert AllDecimal(d[1..]) by {
        forall i | 0 <= i < |d[1..]|
          ensures '0' <= d[1..][i] <= '9'
        {
          assert d[1..][i] == d[i + 1];
        }
      }
      DecimalPrefixStops(d[1..], t);
      var s := d + t;
      assert s[0] == d[0] && s[1..] == d[1..] + t;
      assert [d[0]] + d[1..] == d;
    }
  }

  /** `parseInt` of a printed natural number followed by anything that is not a digit gives that number. */
  lemma ParseIntLeadingNumber(n: nat, t: string)
    requires t == [] || !('0' <= t[0] <= '9')
    requires n == 0 ==> t == [] || (t[0] != 'x' && t[0] != 'X')
    ensures ParseInt(NatToString(n) + t) == Some(n)
  {
    var d := NatToString(n);
    var s := d + t;
    NatToStringDigits(n);
    NatToStringValue(n);
    DecimalPrefixStops(d, t);
    assert s[0] == d[0];
    assert TrimStart(s) == s;
    if n == 0 {
      assert d == "0";
      assert |s| >= 2 ==> s[1] == t[0];
    }
  }

  /** Reading back a printed natural number gives that number. */
  lemma ParseIntNatToString(n: nat)
    ensures ParseInt(NatToString(n)) == Some(n)
  {
    var s := NatToString(n);
    NatToStringDigits(n);
    NatToStringValue(n);
    DecimalPrefixAll(s);
    assert TrimStart(s) == s;
  }

  /** A printed number contains no upper-case letter, so lower-casing keeps it. */
  lemma LowerNatToString(n: nat)
    ensures Lower(NatToString(n)) == NatToString(n)
  {
    NatToStringDigits(n);
    LowerKeeps(NatToString(n));
  }

  /** `parseInt` reads a leading integer and ignores what follows it. */
  lemma ParseIntOrdinal()
    ensures ParseInt("2nd") == Some(2)
  {
    assert TrimStart("2nd") == "2nd";
    assert DigitPrefix("nd", 10) == [];
    assert DigitPrefix("2nd", 10) == "2";
    assert DigitsValue("2", 10) == 2 by {
      assert "2"[..0] == [];
    }
  }

  /** `parseInt` skips leading white space and reads a sign. */
  lemma ParseIntSpaceAndSign()
    ensures ParseInt(" +12") == Some(12)
  {
    assert TrimStart("+12") == "+12";
    assert TrimStart(" +12") == "+12";
    assert "+12"[1..] == "12";
    assert DigitPrefix("", 10) == [];
    assert DigitPrefix("2", 10) == "2";
    assert DigitPrefix("12", 10) == "12";
    assert "12"[..1] == "1";
    assert "1"[..0] == [];
    assert DigitsValue("1", 10) == 1;
    assert DigitsValue("12", 10) == 12;
  }

  /** After "0x", `parseInt` reads hexadecimal digits. */
  lemma ParseIntHex()
    ensures ParseInt("0x1f") == Some(31)
  {
    assert TrimStart("0x1f") == "0x1f";
    assert "0x1f"[2..] == "1f";
    assert DigitPrefix("", 16) == [];
    assert DigitPrefix("f", 16) == "f";
    assert DigitPrefix("1f", 16) == "1f";
    assert "1f"[..1] == "1";
    assert "1"[..0] == [];
    assert DigitsValue("1", 16) == 1;
    assert DigitsValue("1f", 16) == 31;
  }

  /** A phrase that does not start with a number is NaN, even when it contains one. */
  lemma ParseIntNaN()
    ensures ParseInt("option 2") == None
    ensures ParseInt("the second one") == None
    ensures ParseInt("0x") == None
    ensures ParseInt("") == None
  {
    assert TrimStart("option 2") == "option 2";
    assert TrimStart("the second one") == "the second one";
    assert "0x"[2..] == "";
  }
}

=== FILE: scenarios.dfy ===
/**
 * Multi-turn conversations driven through `HandleTurn`, each on a fresh session
 * and a calendar whose requests all succeed.
 */
module Scenarios {
  import opened Wrappers
  import opened JsText
  import opened Intents
  import opened Calendar
  import opened Server

  function At(dateTime: string): EventTime {
    EventTime(Some(dateTime), None, None)
  }

  function Meeting(id: string, summary: string, start: string): Event {
    Event(id, Some(summary), None, None, At(start), At(start), None, LinkFor(id))
  }

  /**
   * A create that conflicts, then "schedule anyway" (classified UNKNOWN with
   * ignoreConflicts), then the same confirmation again: the conflict reply names the
   * existing event, exactly one insert follows carrying the first turn's payload,
   * and the repeated confirmation falls back without creating anything.
   */
  method ConflictThenScheduleAnyway(now: string, formatDate: Option<string> -> string)
    returns (first: Outcome, second: Outcome, third: Outcome, sent: seq<Request>, pending: Option<Intent>)
    ensures first.Replied? && Includes(first.response, "Team sync")
    ensures second.Replied? && StartsWith(second.response, ForcedHeader)
    ensures third == Replied(FallbackReply, ScheduleAnyway())
    ensures |sent| == 2 && sent[0].ListRequest?
    ensures sent[1] == InsertRequest(Payload(SyncWithBob(), None))
    ensures pending == None
  {
    var existing := Meeting("e1", "Team sync", "2026-10-12T15:00:00.000+00:00");
    var calendar := new CalendarService([existing], {}, (e: Event, lo: Option<string>, hi: Option<string>) => true, None);
    var session := new Session();
    var request := SyncWithBob();
    first := HandleTurn(request, session, calendar, now, formatDate);
    assert Fetch([existing], calendar.overlaps, request.startTime, request.endTime, MaxResults) == [existing];
    assert first == Replied(ConflictReply([existing]), request);
    ConflictReplyNamesEach([existing], 0);
    second := HandleTurn(ScheduleAnyway(), session, calendar, now, formatDate);
    third := HandleTurn(ScheduleAnyway(), session, calendar, now, formatDate);
    sent := calendar.requests;
    pending := session.pendingEvent;
  }

  function SyncWithBob(): Intent {
    Intent(CreateEvent, Some("Sync"), Some("2026-10-12T15:00:00.000+00:00"), Some("2026-10-12T15:30:00.000+00:00"),
      Some([Attendee(Some("bob@example.com"), None)]), None, None, false)
  }

  function ScheduleAnyway(): Intent {
    Intent(Unknown, None, None, None, None, None, None, true)
  }

  function CancelTomorrow(): Intent {
    Intent(CancelEvent, None, Some("2026-10-12T00:00:00.000+00:00"), Some("2026-10-13T00:00:00.000+00:00"),
      None, None, None, false)
  }

  function Select(phrase: string): Intent {
    Intent(SelectOption, Some(phrase), None, None, None, None, None, false)
  }

  /**
   * "Cancel my meetings tomorrow" matching three events lists three numbered lines;
   * answering "2" deletes the second of them and clears the candidates.
   */
  method CancelThenSelectSecond(now: string, formatDate: Option<string> -> string)
    returns (first: Outcome, second: Outcome, remaining: seq<Event>, candidates: Option<seq<Event>>)
    ensures first.Replied? && StartsWith(first.response, MultipleHeader)
    ensures second.Replied?
    ensures |remaining| == 2 && remaining[0].id == "a" && remaining[1].id == "c"
    ensures candidates == None
  {
    var a := Meeting("a", "Standup", "2026-10-12T09:00:00.000+00:00");
    var b := Meeting("b", "Design Review", "2026-10-12T11:00:00.000+00:00");
    var c := Meeting("c", "Lunch", "2026-10-12T12:00:00.000+00:00");
    var calendar := new CalendarService([a, b, c], {}, (e: Event, lo: Option<string>, hi: Option<string>) => true, None);
    var session := new Session();
    first := HandleTurn(CancelTomorrow(), session, calendar, now, formatDate);
    StartsWithConcat(MultipleHeader, Join(CandidateLines([a, b, c], 1, formatDate), "\n"));
    FetchEverything([a, b, c], calendar.overlaps, CancelTomorrow().startTime, CancelTomorrow().endTime);
    assert session.cancellationCandidates == Some([a, b, c]);
    SelectSecondByNumber([a, b, c], "2");
    assert HasId([a, b, c], "b");
    second := HandleTurn(Select("2"), session, calendar, now, formatDate);
    remaining := calendar.events;
    RemoveMiddle(a, b, c);
    candidates := session.cancellationCandidates;
  }

  // The lemmas below that take a phrase and pin it with `requires phrase == "..."`
  // do so for the solver's sake: a literal string written into a call of a recursive
  // function such as `Includes` or `ParseInt` gets unfolded character by character
  // wherever it appears, while a parameter is unfolded only where a proof asks for it.

  /** A window admitting every event fetches a short store whole. */
  lemma FetchEverything(store: seq<Event>, overlaps: Window, timeMin: Option<string>, timeMax: Option<string>)
    requires |store| <= MaxResults
    requires forall e :: overlaps(e, timeMin, timeMax)
    ensures Fetch(store, overlaps, timeMin, timeMax, MaxResults) == store
  {
    InWindowAll(store, overlaps, timeMin, timeMax);
  }

  /** Deleting the middle one of three events with distinct ids keeps the outer two. */
  lemma RemoveMiddle(a: Event, b: Event, c: Event)
    requires a.id != b.id && c.id != b.id
    ensures RemoveId([a, b, c], b.id) == [a, c]
  {
    assert [a, b, c][1..] == [b, c];
    assert [b, c][1..] == [c];
    assert [c][1..] == [];
  }

  /** Typing "2" selects the second of three candidates. */
  lemma SelectSecondByNumber(candidates: seq<Event>, phrase: string)
    requires |candidates| == 3 && phrase == "2"
    ensures Resolve(candidates, Lower(phrase)) == Ok(Some(candidates[1]))
  {
    ResolveByNumber(candidates, 2);
    assert NatToString(2) == phrase;
    LowerNatToString(2);
  }

  /** `phrase` holds `word` at position `at`. */
  lemma WordAt(phrase: string, word: string, at: nat)
    requires at + |word| <= |phrase| && phrase[at..at + |word|] == word
    ensures Includes(phrase, word)
  {
    assert OccursAt(phrase, word, at);
    IncludesAt(phrase, word);
  }

  lemma SecondOneIsNaN(phrase: string)
    requires phrase == "the second one"
    ensures ParseInt(phrase) == None
  {
    ParseIntNaN();
  }

  /** "the second one" picks the second candidate by its ordinal word. */
  lemma SecondOneSelection(standup: Event, review: Event, phrase: string)
    requires phrase == "the second one"
    ensures Resolve([standup, review], phrase) == Ok(Some(review))
  {
    SecondOneIsNaN(phrase);
    MissingCharExcludes(phrase, "first", 'f');
    MissingCharExcludes(phrase, "1st", '1');
    WordAt(phrase, "second", 4);
    ResolveSecondWord([standup, review], phrase);
  }

  lemma ReviewIsNaN(phrase: string)
    requires phrase == "review"
    ensures ParseInt(phrase) == None
  {
    assert TrimStart(phrase) == phrase;
    assert DigitPrefix(phrase, 10) == [];
  }

  /** "review" is no number and holds none of the ordinal words. */
  lemma ReviewPhrase(phrase: string)
    requires phrase == "review"
    ensures ParseInt(phrase) == None
    ensures !Includes(phrase, "first") && !Includes(phrase, "1st")
    ensures !Includes(phrase, "second") && !Includes(phrase, "2nd")
    ensures !Includes(phrase, "third") && !Includes(phrase, "3rd")
  {
    ReviewIsNaN(phrase);
    MissingCharExcludes(phrase, "first", 'f');
    MissingCharExcludes(phrase, "1st", '1');
    MissingCharExcludes(phrase, "second", 's');
    MissingCharExcludes(phrase, "2nd", '2');
    MissingCharExcludes(phrase, "third", 't');
    MissingCharExcludes(phrase, "3rd", '3');
  }

  /** "review" is not part of "Standup", whatever the case. */
  lemma ReviewNotInStandup(title: string, phrase: string)
    requires title == "Standup" && phrase == "review"
    ensures !Includes(Lower(title), phrase)
  {
    assert Lower(title) == "standup";
    MissingCharExcludes(Lower(title), phrase, 'r');
  }

  /** "review" is part of "Design Review" once lower-cased. */
  lemma ReviewInDesignReview(title: string, phrase: string)
    requires title == "Design Review" && phrase == "review"
    ensures Includes(Lower(title), phrase)
  {
    assert Lower(title) == "design review";
    assert Lower(title)[7..13] == phrase;
    WordAt(Lower(title), phrase, 7);
  }

  /** With candidates "Standup" and "Design Review", "review" picks the second by its summary. */
  lemma SummarySelection(standup: Event, review: Event, phrase: string)
    requires standup.summary == Some("Standup") && review.summary == Some("Design Review")
    requires phrase == "review"
    ensures Resolve([standup, review], phrase) == Ok(Some(review))
  {
    ReviewPhrase(phrase);
    ReviewNotInStandup(standup.summary.value, phrase);
    ReviewInDesignReview(review.summary.value, phrase);
    ResolveBySummary([standup, review], phrase, 1);
  }
}

=== FILE: server.dfy ===
/**
 * The per-turn dialogue controller of the `/api/query` handler: given the parsed
 * intent and the user's session, it decides which calendar requests to send,
 * updates the two session slots and picks the reply.
 */
module Server {
  import opened Wrappers
  import opened JsText
  import opened Intents
  import opened Calendar

  /** The per-user session slots the handler reads and writes. */
  class Session {
    /** A create intent that hit a conflict and awaits "schedule anyway". */
    var pendingEvent: Option<Intent>
    /** The events a cancel request matched, awaiting a selection. */
    var cancellationCandidates: Option<seq<Event>>

    constructor()
      ensures pendingEvent == None && cancellationCandidates == None
    {
      pendingEvent := None;
      cancellationCandidates := None;
    }
  }

  /** The handler's answer: a JSON reply with the intent echoed, or a 500 "Internal Server Error". */
  datatype Outcome = Replied(response: string, data: Intent) | InternalServerError

  // ---------------------------------------------------------------- routing

  /** The branches of the handler, in the order they are tried. */
  datatype Branch =
    | ListBranch
    | ForcedFromSession
    | ForcedImmediate
    | CheckedCreate
    | CancelBranch
    | SelectBranch
    | ForcedCatchAll
    | Fallback

  /** The first branch whose guard holds. */
  function Route(intent: Intent, hasPending: bool, hasCandidates: bool): (b: Branch)
    ensures b == ForcedCatchAll <==>
            && (intent.kind == Unknown || (intent.kind == SelectOption && !hasCandidates))
            && intent.ignoreConflicts && hasPending
    ensures b == Fallback <==>
            && (intent.kind == Unknown || (intent.kind == SelectOption && !hasCandidates))
            && !(intent.ignoreConflicts && hasPending)
    ensures b in {ForcedFromSession, ForcedImmediate, CheckedCreate} <==> intent.kind == CreateEvent
    ensures b == ListBranch <==> intent.kind == ListEvents
    ensures b == ForcedFromSession <==> intent.kind == CreateEvent && intent.ignoreConflicts && hasPending
    ensures b == ForcedImmediate <==> intent.kind == CreateEvent && intent.ignoreConflicts && !hasPending
    ensures b == CheckedCreate <==> intent.kind == CreateEvent && !intent.ignoreConflicts
    ensures b == CancelBranch <==> intent.kind == CancelEvent
    ensures b == SelectBranch <==> intent.kind == SelectOption && hasCandidates
  {
    match intent.kind
    case ListEvents => ListBranch
    case CreateEvent =>
      if intent.ignoreConflicts && hasPending then ForcedFromSession
      else if intent.ignoreConflicts then ForcedImmediate
      else CheckedCreate
    case CancelEvent => CancelBranch
    case _ =>
      if intent.kind == SelectOption && hasCandidates then SelectBranch
      else if intent.ignoreConflicts && hasPending then ForcedCatchAll
      else Fallback
  }

  /** A failed classification never creates anything, whatever the session holds. */
  lemma ClassifierFailureFallsBack(hasPending: bool, hasCandidates: bool)
    ensures Route(ClassifierFailed(), hasPending, hasCandidates) == Fallback
  {
  }

  /** Once the pending event is cleared, no branch creates it again. */
  lemma NoReconfirmationWithoutPending(intent: Intent, hasCandidates: bool)
    ensures Route(intent, false, hasCandidates) !in {ForcedFromSession, ForcedCatchAll}
  {
  }

  // ---------------------------------------------------------------- replies

  const ListHeader := "Here are your upcoming events:\n"
  const ForcedHeader := "I've forced that schedule for you. "
  const ScheduledHeader := "I've scheduled that for you. "
  const NoMatchReply := "I couldn't find any matching events to cancel."
  const MultipleHeader :=
    "I found multiple matching events. Please specify which one to cancel (e.g., \"1\" or \"the first one\"):\n"
  const UnresolvedReply := "I couldn't identify which event you meant. Please say the number (e.g., '1')."
  const FallbackReply := "I didn't quite catch that. Could you rephrase?"
  const ConflictHeader := "I found a conflict with: "
  const ConflictQuestion := ". Do you want to schedule anyway? (Reply \"schedule anyway\" to override)"
  const CanceledHeader := "I've canceled the event: \""

  /** The summaries of the conflicting events, as `map(e => e.summary).join(', ')` renders them. */
  function ConflictNames(conflicts: seq<Event>): (names: seq<string>)
    ensures |names| == |conflicts|
    ensures forall i :: 0 <= i < |conflicts| ==> names[i] == JoinText(conflicts[i].summary)
  {
    seq(|conflicts|, i requires 0 <= i < |conflicts| => JoinText(conflicts[i].summary))
  }

  /** The question asked when the requested window is busy. */
  function ConflictReply(conflicts: seq<Event>): (reply: string)
    ensures StartsWith(reply, ConflictHeader)
  {
    var rest := Join(ConflictNames(conflicts), ", ") + ConflictQuestion;
    StartsWithConcat(ConflictHeader, rest);
    ConflictHeader + rest
  }

  /** The conflict reply names every conflicting event. */
  lemma ConflictReplyNamesEach(conflicts: seq<Event>, k: nat)
    requires k < |conflicts|
    ensures Includes(ConflictReply(conflicts), JoinText(conflicts[k].summary))
  {
    var names := ConflictNames(conflicts);
    JoinIncludesEach(names, ", ", k);
    IncludesWithin(ConflictHeader, Join(names, ", "), ConflictQuestion, names[k]);
    assert ConflictReply(conflicts) == ConflictHeader + Join(names, ", ") + ConflictQuestion;
  }

  /** The confirmation after a deletion, with the start formatted for the user. */
  function CanceledReply(e: Event, formatDate: Option<string> -> string): (reply: string)
    ensures StartsWith(reply, CanceledHeader + Show(e.summary) + "\" at ")
    ensures Includes(reply, formatDate(StartValue(e)))
  {
    var head := CanceledHeader + Show(e.summary) + "\" at ";
    var date := formatDate(StartValue(e));
    StartsWithConcat(head, date);
    IncludesSelf(date);
    IncludesWithin(head, date, "", date);
    assert head + date + "" == head + date;
    head + date
  }

  /** `a.displayName || a.email`, as `join` renders it. */
  function AttendeeName(a: Attendee): string {
    JoinText(Or(a.displayName, a.email))
  }

  /** `attendees.map(a => a.displayName || a.email)`. */
  function AttendeeNames(attendees: seq<Attendee>): (names: seq<string>)
    ensures |names| == |attendees|
    ensures forall i :: 0 <= i < |attendees| ==> names[i] == AttendeeName(attendees[i])
  {
    seq(|attendees|, i requires 0 <= i < |attendees| => AttendeeName(attendees[i]))
  }

  /** " With <names>" when the event has an attendee list (even an empty one), else "". */
  function AttendeesSuffix(e: Event): (suffix: string)
    ensures e.attendees.None? ==> suffix == ""
    ensures e.attendees.Some? ==> StartsWith(suffix, " With ")
    ensures e.attendees == Some([]) ==> suffix == " With "
  {
    if e.attendees.Some? then
      StartsWithConcat(" With ", Join(AttendeeNames(e.attendees.value), ", "));
      " With " + Join(AttendeeNames(e.attendees.value), ", ")
    else ""
  }

  /** The suffix names every attendee, by display name or else by email. */
  lemma AttendeesSuffixNamesEach(e: Event, k: nat)
    requires e.attendees.Some? && k < |e.attendees.value|
    ensures Includes(AttendeesSuffix(e), AttendeeName(e.attendees.value[k]))
  {
    var names := AttendeeNames(e.attendees.value);
    JoinIncludesEach(names, ", ", k);
    IncludesWithin(" With ", Join(names, ", "), "", names[k]);
    assert " With " + Join(names, ", ") + "" == AttendeesSuffix(e);
  }

  /** The line offering candidate number `number`. */
  function CandidateLine(e: Event, number: nat, formatDate: Option<string> -> string): string {
    NatToString(number) + ". " + formatDate(StartValue(e)) + " - " + Show(e.summary) + AttendeesSuffix(e)
  }

  /** A candidate line opens with its number and shows the event's start and summary. */
  lemma CandidateLineShape(e: Event, number: nat, formatDate: Option<string> -> string)
    ensures StartsWith(CandidateLine(e, number, formatDate), NatToString(number) + ". ")
    ensures Includes(CandidateLine(e, number, formatDate), formatDate(StartValue(e)) + " - " + Show(e.summary))
  {
    var head := NatToString(number) + ". ";
    var body := formatDate(StartValue(e)) + " - " + Show(e.summary);
    StartsAndContains(head, body, AttendeesSuffix(e));
    assert CandidateLine(e, number, formatDate) == head + body + AttendeesSuffix(e);
  }

  /** `candidates.map((e, index) => ...)`: the candidate lines, numbered from `first`. */
  function CandidateLines(candidates: seq<Event>, first: nat, formatDate: Option<string> -> string): (lines: seq<string>)
    ensures |lines| == |candidates|
    ensures forall k :: 0 <= k < |candidates| ==> lines[k] == CandidateLine(candidates[k], first + k, formatDate)
  {
    seq(|candidates|, k requires 0 <= k < |candidates| => CandidateLine(candidates[k], first + k, formatDate))
  }

  /** The numbered list of candidates, under the request to pick one. */
  function CandidatesReply(candidates: seq<Event>, formatDate: Option<string> -> string): (reply: string)
    ensures StartsWith(reply, MultipleHeader)
  {
    StartsWithConcat(MultipleHeader, Join(CandidateLines(candidates, 1, formatDate), "\n"));
    MultipleHeader + Join(CandidateLines(candidates, 1, formatDate), "\n")
  }

  /** The candidate list offers every candidate, each under its number. */
  lemma CandidatesReplyOffersEach(candidates: seq<Event>, formatDate: Option<string> -> string, k: nat)
    requires k < |candidates|
    ensures Includes(CandidatesReply(candidates, formatDate), CandidateLine(candidates[k], k + 1, formatDate))
  {
    var lines := CandidateLines(candidates, 1, formatDate);
    JoinIncludesEach(lines, "\n", k);
    IncludesWithin(MultipleHeader, Join(lines, "\n"), "", lines[k]);
    assert MultipleHeader + Join(lines, "\n") + "" == CandidatesReply(candidates, formatDate);
  }

  // ---------------------------------------------------------------- the cancel filter

  /**
   * Does an event match the lower-cased cancel query?  Either the event's summary
   * contains the query or the query contains the summary.  An empty summary is
   * contained in every query; an absent one is rendered "undefined" by `includes`.
   */
  predicate MatchesQuery(e: Event, query: string) {
    match e.summary
    case None => Includes(query, "undefined")
    case Some(s) => (s != "" && Includes(Lower(s), query)) || Includes(query, Lower(s))
  }

  /**
   * The filter test, position by position: an absent summary matches when "undefined"
   * occurs in the query; a non-empty one when the query occurs in it or it occurs in
   * the query.
   */
  lemma MatchesQueryOccurs(e: Event, query: string)
    ensures e.summary.None? ==> (MatchesQuery(e, query) <==> exists i :: OccursAt(query, "undefined", i))
    ensures e.summary.Some? && e.summary.value != "" ==>
              (MatchesQuery(e, query) <==>
                 (exists i :: OccursAt(Lower(e.summary.value), query, i)) ||
                 (exists i :: OccursAt(query, Lower(e.summary.value), i)))
  {
    if e.summary.None? {
      IncludesAt(query, "undefined");
    } else {
      IncludesAt(Lower(e.summary.value), query);
      IncludesAt(query, Lower(e.summary.value));
    }
  }

  /** `events.filter(e => MatchesQuery(e, query))`. */
  function Matching(events: seq<Event>, query: string): (r: seq<Event>)
    ensures |r| <= |events|
    ensures forall e :: e in r <==> e in events && MatchesQuery(e, query)
    decreases |events|
  {
    if events == [] then []
    else
      var rest := Matching(events[1..], query);
      if MatchesQuery(events[0], query) then [events[0]] + rest else rest
  }

  /** Filtering a concatenation filters each part in turn, so the kept events stay in their order. */
  lemma {:induction false} MatchingAppend(a: seq<Event>, b: seq<Event>, query: string)
    ensures Matching(a + b, query) == Matching(a, query) + Matching(b, query)
    decreases |a|
  {
    if a == [] {
      assert a + b == b;
    } else {
      var ab := a + b;
      assert ab != [] && ab[0] == a[0] && ab[1..] == a[1..] + b;
      MatchingAppend(a[1..], b, query);
      if MatchesQuery(a[0], query) {
        assert Matching(ab, query) == [a[0]] + Matching(a[1..] + b, query);
        assert Matching(a, query) == [a[0]] + Matching(a[1..], query);
      } else {
        assert Matching(ab, query) == Matching(a[1..] + b, query);
        assert Matching(a, query) == Matching(a[1..], query);
      }
    }
  }

  /** One event is kept exactly when it matches. */
  lemma MatchingSingle(e: Event, query: string)
    ensures Matching([e], query) == if MatchesQuery(e, query) then [e] else []
  {
    assert [e][1..] == [];
  }

  /** The events a cancel intent targets: all fetched events, narrowed by a non-empty summary. */
  function CancelFilter(events: seq<Event>, summary: Option<string>): (r: seq<Event>)
    ensures !Truthy(summary) ==> r == events
    ensures Truthy(summary) ==> r == Matching(events, Lower(summary.value))
  {
    if Truthy(summary) then Matching(events, Lower(summary.value)) else events
  }

  /** The match is case-insensitive and goes both ways. */
  lemma MatchesEitherWay(e: Event, summary: string, query: string)
    requires e.summary == Some(summary) && summary != ""
    ensures Includes(Lower(summary), Lower(query)) ==> MatchesQuery(e, Lower(query))
    ensures Includes(Lower(query), Lower(summary)) ==> MatchesQuery(e, Lower(query))
    ensures !Includes(Lower(summary), Lower(query)) && !Includes(Lower(query), Lower(summary)) ==>
              !MatchesQuery(e, Lower(query))
  {
  }

  /** An event with an empty summary matches every query. */
  lemma EmptySummaryMatchesAll(e: Event, query: string)
    requires e.summary == Some("")
    ensures MatchesQuery(e, query)
  {
    IncludesEmpty(query);
  }

  /** An event without a summary matches exactly the queries containing "undefined". */
  lemma AbsentSummaryMatchesUndefined(e: Event, query: string)
    requires e.summary == None
    ensures MatchesQuery(e, query) <==> Includes(query, "undefined")
  {
  }

  /** An event whose summary equals the query up to case always matches. */
  lemma SameTitleMatches(e: Event, summary: string, query: string)
    requires e.summary == Some(summary) && Lower(summary) == Lower(query)
    ensures MatchesQuery(e, Lower(query))
  {
    IncludesSelf(Lower(query));
  }

  // ---------------------------------------------------------------- selection

  /** `candidates[i]`, or `undefined` past the end. */
  function CandidateAt(candidates: seq<Event>, i: nat): (r: Option<Event>)
    ensures r.Some? <==> i < |candidates|
    ensures r.Some? ==> r.value == candidates[i]
  {
    if i < |candidates| then Some(candidates[i]) else None
  }

  predicate SummaryIncludes(e: Event, selection: string) {
    e.summary.Some? && Includes(Lower(e.summary.value), selection)
  }

  /**
   * `candidates.find(e => e.summary.toLowerCase().includes(selection))` as the index
   * found; reaching a candidate without a summary throws a TypeError.
   */
  function FindBySummary(candidates: seq<Event>, selection: string): (r: Result<Option<int>>)
    ensures r.Ok? && r.value.Some? ==>
              && 0 <= r.value.value < |candidates|
              && SummaryIncludes(candidates[r.value.value], selection)
              && forall j :: 0 <= j < r.value.value ==>
                   candidates[j].summary.Some? && !SummaryIncludes(candidates[j], selection)
    ensures r.Ok? && r.value.None? ==>
              forall j :: 0 <= j < |candidates| ==>
                candidates[j].summary.Some? && !SummaryIncludes(candidates[j], selection)
    ensures r.Err? ==>
              exists j :: 0 <= j < |candidates| && candidates[j].summary.None? &&
                forall i :: 0 <= i < j ==> !SummaryIncludes(candidates[i], selection)
    decreases |candidates|
  {
    if candidates == [] then Ok(None)
    else if candidates[0].summary.None? then Err("TypeError: cannot read toLowerCase of undefined")
    else if SummaryIncludes(candidates[0], selection) then Ok(Some(0))
    else
      match FindBySummary(candidates[1..], selection)
      case Err(msg) => Err(msg)
      case Ok(None) => Ok(None)
      case Ok(Some(k)) => Ok(Some(k + 1))
  }

  /**
   * Resolve the lower-cased selection phrase against the candidates: a 1-based
   * number in range first, then the ordinal words, then the first candidate whose
   * summary contains the phrase.
   */
  function Resolve(candidates: seq<Event>, selection: string): (r: Result<Option<Event>>)
    ensures r.Ok? && r.value.Some? ==> r.value.value in candidates
    ensures r.Err? ==> exists j :: 0 <= j < |candidates| && candidates[j].summary.None?
  {
    var number := ParseInt(selection);
    if number.Some? && 1 <= number.value <= |candidates| then Ok(Some(candidates[number.value - 1]))
    else if Includes(selection, "first") || Includes(selection, "1st") then Ok(CandidateAt(candidates, 0))
    else if Includes(selection, "second") || Includes(selection, "2nd") then Ok(CandidateAt(candidates, 1))
    else if Includes(selection, "third") || Includes(selection, "3rd") then Ok(CandidateAt(candidates, 2))
    else
      match FindBySummary(candidates, selection)
      case Err(msg) => Err(msg)
      case Ok(None) => Ok(None)
      case Ok(Some(k)) => Ok(Some(candidates[k]))
  }

  /** A phrase whose `parseInt` is a number in 1..N selects that candidate, before any ordinal word is looked at. */
  lemma ResolveByParsedNumber(candidates: seq<Event>, selection: string)
    requires ParseInt(selection).Some? && 1 <= ParseInt(selection).value <= |candidates|
    ensures Resolve(candidates, selection) == Ok(Some(candidates[ParseInt(selection).value - 1]))
  {
  }

  /** Typing back a number in range selects that candidate. */
  lemma ResolveByNumber(candidates: seq<Event>, k: nat)
    requires 1 <= k <= |candidates|
    ensures Resolve(candidates, Lower(NatToString(k))) == Ok(Some(candidates[k - 1]))
  {
    LowerNatToString(k);
    ParseIntNatToString(k);
  }

  /**
   * The number that opens line `k` of the candidate list, typed back on the next
   * turn, selects exactly the candidate that line offers.
   */
  lemma ListedNumberSelectsListedCandidate(candidates: seq<Event>, formatDate: Option<string> -> string, k: nat)
    requires k < |candidates|
    ensures |CandidateLines(candidates, 1, formatDate)| == |candidates|
    ensures var line := CandidateLines(candidates, 1, formatDate)[k];
            && StartsWith(line, NatToString(k + 1) + ". ")
            && Resolve(candidates, Lower(NatToString(k + 1))) == Ok(Some(candidates[k]))
  {
    CandidateLineShape(candidates[k], k + 1, formatDate);
    ResolveByNumber(candidates, k + 1);
  }

  /** No typed number in 1..N: the ordinal words are tried next. */
  predicate NoNumberInRange(candidates: seq<Event>, selection: string) {
    !(ParseInt(selection).Some? && 1 <= ParseInt(selection).value <= |candidates|)
  }

  /** "first" or "1st" picks `candidates[0]`, if it exists. */
  lemma ResolveFirstWord(candidates: seq<Event>, selection: string)
    requires NoNumberInRange(candidates, selection)
    requires Includes(selection, "first") || Includes(selection, "1st")
    ensures Resolve(candidates, selection) == Ok(CandidateAt(candidates, 0))
  {
  }

  /** "second" or "2nd", with neither earlier word, picks `candidates[1]`, if it exists. */
  lemma ResolveSecondWord(candidates: seq<Event>, selection: string)
    requires NoNumberInRange(candidates, selection)
    requires !Includes(selection, "first") && !Includes(selection, "1st")
    requires Includes(selection, "second") || Includes(selection, "2nd")
    ensures Resolve(candidates, selection) == Ok(CandidateAt(candidates, 1))
  {
  }

  /** "third" or "3rd", with none of the earlier words, picks `candidates[2]`, if it exists. */
  lemma ResolveThirdWord(candidates: seq<Event>, selection: string)
    requires NoNumberInRange(candidates, selection)
    requires !Includes(selection, "first") && !Includes(selection, "1st")
    requires !Includes(selection, "second") && !Includes(selection, "2nd")
    requires Includes(selection, "third") || Includes(selection, "3rd")
    ensures Resolve(candidates, selection) == Ok(CandidateAt(candidates, 2))
  {
  }

  /**
   * An ordinal word past the end of the list resolves to nothing: the summary
   * search is never tried, even when a summary would contain the phrase.
   */
  lemma ThirdOfTooFewUnresolved(candidates: seq<Event>, selection: string)
    requires |candidates| < 3
    requires NoNumberInRange(candidates, selection)
    requires !Includes(selection, "first") && !Includes(selection, "1st")
    requires !Includes(selection, "second") && !Includes(selection, "2nd")
    requires Includes(selection, "third") || Includes(selection, "3rd")
    ensures Resolve(candidates, selection) == Ok(None)
  {
    ResolveThirdWord(candidates, selection);
  }

  /** The phrase holds none of the six ordinal words. */
  predicate NoOrdinalWord(selection: string) {
    && !Includes(selection, "first") && !Includes(selection, "1st")
    && !Includes(selection, "second") && !Includes(selection, "2nd")
    && !Includes(selection, "third") && !Includes(selection, "3rd")
  }

  /**
   * When no number in range is typed and no ordinal word is used, the summary search
   * decides: nothing is selected exactly when every candidate has a summary and none
   * contains the phrase, and the search fails (a TypeError, so a 500) exactly when a
   * summary-less candidate is reached before any hit.
   */
  lemma ResolveSummaryStep(candidates: seq<Event>, selection: string)
    requires NoNumberInRange(candidates, selection) && NoOrdinalWord(selection)
    ensures Resolve(candidates, selection) == Ok(None) <==>
              forall j :: 0 <= j < |candidates| ==>
                candidates[j].summary.Some? && !SummaryIncludes(candidates[j], selection)
    ensures Resolve(candidates, selection).Err? <==>
              exists j :: 0 <= j < |candidates| && candidates[j].summary.None? &&
                forall i :: 0 <= i < j ==> !SummaryIncludes(candidates[i], selection)
  {
    var found := FindBySummary(candidates, selection);
    if found.Ok? && found.value.Some? {
      var k := found.value.value;
      forall j | 0 <= j < |candidates| && candidates[j].summary.None?
        ensures exists i :: 0 <= i < j && SummaryIncludes(candidates[i], selection)
      {
        assert !(j < k);
        assert j != k;
        assert SummaryIncludes(candidates[k], selection) && k < j;
      }
    } else if found.Err? {
      var j :| 0 <= j < |candidates| && candidates[j].summary.None? &&
                forall i :: 0 <= i < j ==> !SummaryIncludes(candidates[i], selection);
      assert !(candidates[j].summary.Some?);
    }
  }

  /** A selection found by summary is the first candidate whose summary contains it. */
  lemma ResolveBySummary(candidates: seq<Event>, selection: string, k: nat)
    requires NoNumberInRange(candidates, selection) && NoOrdinalWord(selection)
    requires k < |candidates| && SummaryIncludes(candidates[k], selection)
    requires forall j :: 0 <= j < k ==> candidates[j].summary.Some? && !SummaryIncludes(candidates[j], selection)
    ensures Resolve(candidates, selection) == Ok(Some(candidates[k]))
  {
  }

  // ---------------------------------------------------------------- the handler

  /** The route the handler takes for this intent and the session as it is. */
  function RouteOf(intent: Intent, session: Session): Branch
    reads session
  {
    Route(intent, session.pendingEvent.Some?, session.cancellationCandidates.Some?)
  }

  /** LIST_EVENTS: one list request, the session and the events untouched. */
  twostate predicate ListEffect(intent: Intent, session: Session, calendar: CalendarService, now: string, out: Outcome)
    reads session, calendar
  {
    var q := ListQuery(intent.startTime, intent.endTime, now, 10);
    && calendar.requests == old(calendar.requests) + [q]
    && calendar.events == old(calendar.events)
    && unchanged(session)
    && out == if calendar.Rejects(old(|calendar.requests|)) then InternalServerError
              else Replied(ListHeader + RenderList(Fetch(old(calendar.events), calendar.overlaps, q.timeMin, q.timeMax, 10)), intent)
  }

  /**
   * A forced create of `details`: one insert request, no availability check.  On
   * success the event is stored and, when `clearsPending`, the pending event is cleared.
   */
  twostate predicate ForcedCreateEffect(details: Intent, clearsPending: bool, intent: Intent, session: Session,
                                        calendar: CalendarService, out: Outcome)
    reads session, calendar
  {
    var payload := Payload(details, calendar.timeZoneEnv);
    var n := old(|calendar.requests|);
    && calendar.requests == old(calendar.requests) + [InsertRequest(payload)]
    && session.cancellationCandidates == old(session.cancellationCandidates)
    && (calendar.Rejects(n) ==> out == InternalServerError && unchanged(session) && calendar.events == old(calendar.events))
    && (!calendar.Rejects(n) ==>
          && calendar.events == old(calendar.events) + [Stored(payload, CreatedId(n))]
          && session.pendingEvent == (if clearsPending then None else old(session.pendingEvent))
          && out == Replied(ForcedHeader + CreatedText(CreatedId(n)), intent))
  }

  /**
   * CREATE_EVENT without ignoreConflicts: check the window; when it is free create
   * the event and clear the pending one, otherwise create nothing, remember the
   * intent and list the conflicts.
   */
  twostate predicate CheckedCreateEffect(intent: Intent, session: Session, calendar: CalendarService, out: Outcome)
    reads session, calendar
  {
    var check := ListRequest(intent.startTime, intent.endTime, MaxResults);
    var conflicts := Fetch(old(calendar.events), calendar.overlaps, intent.startTime, intent.endTime, MaxResults);
    var payload := Payload(intent, calendar.timeZoneEnv);
    var n := old(|calendar.requests|);
    && session.cancellationCandidates == old(session.cancellationCandidates)
    && (calendar.Rejects(n) ==>
          && calendar.requests == old(calendar.requests) + [check]
          && out == InternalServerError && unchanged(session) && calendar.events == old(calendar.events))
    && (!calendar.Rejects(n) && conflicts == [] ==>
          && calendar.requests == old(calendar.requests) + [check, InsertRequest(payload)]
          && (calendar.Rejects(n + 1) ==>
                out == InternalServerError && unchanged(session) && calendar.events == old(calendar.events))
          && (!calendar.Rejects(n + 1) ==>
                && calendar.events == old(calendar.events) + [Stored(payload, CreatedId(n + 1))]
                && session.pendingEvent == None
                && out == Replied(ScheduledHeader + CreatedText(CreatedId(n + 1)), intent)))
    && (!calendar.Rejects(n) && conflicts != [] ==>
          && calendar.requests == old(calendar.requests) + [check]
          && calendar.events == old(calendar.events)
          && session.pendingEvent == Some(intent)
          && out == Replied(ConflictReply(conflicts), intent))
  }

  /**
   * CANCEL_EVENT: fetch the window and filter it; no match changes nothing, a single
   * match is deleted (the candidates slot is left as it was), several matches become
   * the candidates.
   */
  twostate predicate CancelEffect(intent: Intent, session: Session, calendar: CalendarService,
                                  formatDate: Option<string> -> string, out: Outcome)
    reads session, calendar
  {
    var fetch := ListRequest(intent.startTime, intent.endTime, MaxResults);
    var found := Fetch(old(calendar.events), calendar.overlaps, intent.startTime, intent.endTime, MaxResults);
    var matches := CancelFilter(found, intent.summary);
    var n := old(|calendar.requests|);
    && session.pendingEvent == old(session.pendingEvent)
    && (calendar.Rejects(n) ==>
          && calendar.requests == old(calendar.requests) + [fetch]
          && out == InternalServerError && unchanged(session) && calendar.events == old(calendar.events))
    && (!calendar.Rejects(n) && |matches| == 0 ==>
          && calendar.requests == old(calendar.requests) + [fetch]
          && calendar.events == old(calendar.events) && unchanged(session)
          && out == Replied(NoMatchReply, intent))
    && (!calendar.Rejects(n) && |matches| == 1 ==>
          && calendar.requests == old(calendar.requests) + [fetch, DeleteRequest(matches[0].id)]
          && unchanged(session)
          && (calendar.Rejects(n + 1) ==> out == InternalServerError && calendar.events == old(calendar.events))
          && (!calendar.Rejects(n + 1) ==>
                && calendar.events == RemoveId(old(calendar.events), matches[0].id)
                && out == Replied(CanceledReply(matches[0], formatDate), intent)))
    && (!calendar.Rejects(n) && |matches| > 1 ==>
          && calendar.requests == old(calendar.requests) + [fetch]
          && calendar.events == old(calendar.events)
          && session.cancellationCandidates == Some(matches)
          && out == Replied(CandidatesReply(matches, formatDate), intent))
  }

  /**
   * SELECT_OPTION with candidates: resolve the phrase; a resolved candidate is deleted
   * and the candidates cleared, an unresolved phrase asks again and keeps them.
   */
  twostate predicate SelectEffect(intent: Intent, session: Session, calendar: CalendarService,
                                  formatDate: Option<string> -> string, out: Outcome)
    reads session, calendar
  {
    var n := old(|calendar.requests|);
    && old(session.cancellationCandidates).Some?
    && session.pendingEvent == old(session.pendingEvent)
    && (intent.summary.None? ==>
          && calendar.requests == old(calendar.requests)
          && out == InternalServerError && unchanged(session) && calendar.events == old(calendar.events))
    && (intent.summary.Some? ==>
          var resolved := Resolve(old(session.cancellationCandidates).value, Lower(intent.summary.value));
          && (resolved.Err? ==>
                && calendar.requests == old(calendar.requests)
                && out == InternalServerError && unchanged(session) && calendar.events == old(calendar.events))
          && (resolved == Ok(None) ==>
                && calendar.requests == old(calendar.requests)
                && calendar.events == old(calendar.events) && unchanged(session)
                && out == Replied(UnresolvedReply, intent))
          && (resolved.Ok? && resolved.value.Some? ==>
                var chosen := resolved.value.value;
                && calendar.requests == old(calendar.requests) + [DeleteRequest(chosen.id)]
                && (calendar.Rejects(n) || !HasId(old(calendar.events), chosen.id) ==>
                      out == InternalServerError && unchanged(session) && calendar.events == old(calendar.events))
                && (!calendar.Rejects(n) && HasId(old(calendar.events), chosen.id) ==>
                      && calendar.events == RemoveId(old(calendar.events), chosen.id)
                      && session.cancellationCandidates == None
                      && out == Replied(CanceledReply(chosen, formatDate), intent))))
  }

  /** The fixed fallback: no request, no change. */
  twostate predicate FallbackEffect(intent: Intent, session: Session, calendar: CalendarService, out: Outcome)
    reads session, calendar
  {
    && calendar.requests == old(calendar.requests) && calendar.events == old(calendar.events)
    && unchanged(session) && out == Replied(FallbackReply, intent)
  }

  method ListTurn(intent: Intent, session: Session, calendar: CalendarService, now: string) returns (out: Outcome)
    modifies calendar`requests
    ensures out.Replied? ==> out.data == intent && |out.response| > 0
    ensures out.InternalServerError? ==> unchanged(session) && calendar.events == old(calendar.events)
    ensures ListEffect(intent, session, calendar, now, out)
  {
    var events := calendar.ListEvents(intent.startTime, intent.endTime, now);
    if events.Err? {
      return InternalServerError;
    }
    out := Replied(ListHeader + events.value, intent);
  }

  method ForcedCreateTurn(details: Intent, clearsPending: bool, intent: Intent, session: Session,
                          calendar: CalendarService)
    returns (out: Outcome)
    modifies session`pendingEvent, calendar
    ensures out.Replied? ==> out.data == intent && |out.response| > 0
    ensures out.InternalServerError? ==> unchanged(session) && calendar.events == old(calendar.events)
    ensures ForcedCreateEffect(details, clearsPending, intent, session, calendar, out)
  {
    var result := calendar.CreateEvent(details);
    if result.Err? {
      return InternalServerError;
    }
    out := Replied(ForcedHeader + result.value, intent);
    if clearsPending {
      session.pendingEvent := None;
    }
  }

  method CheckedCreateTurn(intent: Intent, session: Session, calendar: CalendarService) returns (out: Outcome)
    modifies session`pendingEvent, calendar
    ensures out.Replied? ==> out.data == intent && |out.response| > 0
    ensures out.InternalServerError? ==> unchanged(session) && calendar.events == old(calendar.events)
    ensures CheckedCreateEffect(intent, session, calendar, out)
  {
    var availability := calendar.CheckAvailability(intent.startTime, intent.endTime);
    if availability.Err? {
      return InternalServerError;
    }
    if availability.value.available {
      var result := calendar.CreateEvent(intent);
      if result.Err? {
        return InternalServerError;
      }
      out := Replied(ScheduledHeader + result.value, intent);
      session.pendingEvent := None;
    } else {
      session.pendingEvent := Some(intent);
      out := Replied(ConflictReply(availability.value.conflicts), intent);
    }
  }

  method CancelTurn(intent: Intent, session: Session, calendar: CalendarService, formatDate: Option<string> -> string)
    returns (out: Outcome)
    modifies session`cancellationCandidates, calendar
    ensures out.Replied? ==> out.data == intent && |out.response| > 0
    ensures out.InternalServerError? ==> unchanged(session) && calendar.events == old(calendar.events)
    ensures CancelEffect(intent, session, calendar, formatDate, out)
  {
    var events := calendar.GetEvents(intent.startTime, intent.endTime);
    if events.Err? {
      return InternalServerError;
    }
    var eventsToDelete := CancelFilter(events.value, intent.summary);
    if |eventsToDelete| == 0 {
      out := Replied(NoMatchReply, intent);
    } else if |eventsToDelete| == 1 {
      var event := eventsToDelete[0];
      assert HasId(calendar.events, event.id);
      var deleted := calendar.DeleteEvent(event.id);
      if deleted.Err? {
        return InternalServerError;
      }
      out := Replied(CanceledReply(event, formatDate), intent);
    } else {
      session.cancellationCandidates := Some(eventsToDelete);
      out := Replied(CandidatesReply(eventsToDelete, formatDate), intent);
    }
  }

  method SelectTurn(intent: Intent, session: Session, calendar: CalendarService, formatDate: Option<string> -> string)
    returns (out: Outcome)
    requires session.cancellationCandidates.Some?
    modifies session`cancellationCandidates, calendar
    ensures out.Replied? ==> out.data == intent && |out.response| > 0
    ensures out.InternalServerError? ==> unchanged(session) && calendar.events == old(calendar.events)
    ensures SelectEffect(intent, session, calendar, formatDate, out)
  {
    var candidates := session.cancellationCandidates.value;
    if intent.summary.None? {
      return InternalServerError;
    }
    var selection := Lower(intent.summary.value);
    var selectedEvent := Resolve(candidates, selection);
    if selectedEvent.Err? {
      return InternalServerError;
    }
    if selectedEvent.value.None? {
      return Replied(UnresolvedReply, intent);
    }
    var deleted := calendar.DeleteEvent(selectedEvent.value.value.id);
    if deleted.Err? {
      return InternalServerError;
    }
    out := Replied(CanceledReply(selectedEvent.value.value, formatDate), intent);
    session.cancellationCandidates := None;
  }

  /**
   * One turn of the `/api/query` handler on a parsed intent.  `now` is the current
   * time in ISO form and `formatDate` the locale date formatter.
   */
  method HandleTurn(intent: Intent, session: Session, calendar: CalendarService, now: string,
                    formatDate: Option<string> -> string)
    returns (out: Outcome)
    modifies session, calendar
    ensures out.Replied? ==> out.data == intent && |out.response| > 0
    ensures out.InternalServerError? ==> unchanged(session) && calendar.events == old(calendar.events)
    ensures old(RouteOf(intent, session)) == ListBranch ==> ListEffect(intent, session, calendar, now, out)
    ensures old(RouteOf(intent, session)) in {ForcedFromSession, ForcedCatchAll} ==>
              ForcedCreateEffect(old(session.pendingEvent).value, true, intent, session, calendar, out)
    ensures old(RouteOf(intent, session)) == ForcedImmediate ==>
              ForcedCreateEffect(intent, false, intent, session, calendar, out)
    ensures old(RouteOf(intent, session)) == CheckedCreate ==> CheckedCreateEffect(intent, session, calendar, out)
    ensures old(RouteOf(intent, session)) == CancelBranch ==> CancelEffect(intent, session, calendar, formatDate, out)
    ensures old(RouteOf(intent, session)) == SelectBranch ==> SelectEffect(intent, session, calendar, formatDate, out)
    ensures old(RouteOf(intent, session)) == Fallback ==> FallbackEffect(intent, session, calendar, out)
  {
    match RouteOf(intent, session)
    case ListBranch =>
      out := ListTurn(intent, session, calendar, now);
    case ForcedFromSession =>
      out := ForcedCreateTurn(session.pendingEvent.value, true, intent, session, calendar);
    case ForcedImmediate =>
      out := ForcedCreateTurn(intent, false, intent, session, calendar);
    case CheckedCreate =>
      out := CheckedCreateTurn(intent, session, calendar);
    case CancelBranch =>
      out := CancelTurn(intent, session, calendar, formatDate);
    case SelectBranch =>
      out := SelectTurn(intent, session, calendar, formatDate);
    case ForcedCatchAll =>
      out := ForcedCreateTurn(session.pendingEvent.value, true, intent, session, calendar);
    case Fallback =>
      out := Replied(FallbackReply, intent);
  }
}

=== FILE: wrappers.dfy ===
/** Optional values and operation results shared by every module of the model. */
module Wrappers {

  /** A value that may be absent; `None` stands for JavaScript's `undefined` / `null`. */
  datatype Option<+T> = None | Some(value: T)

  /** The outcome of an operation that may throw; `Err` carries a description of the exception. */
  datatype Result<+T> = Ok(value: T) | Err(error: string)
}
